=== FILE: README.md ===
# PlaneAreaWithBinSpawner in Dafny

A model of the AR trash spawner `PlaneAreaWithBinSpawner`. It watches the
horizontal planes that AR Foundation tracks. Once enough floor is known, by
total area or by the largest single plane, it does three things:

- places a bin at the centre of the best plane;
- fills the planes with up to `maxSpawns` trash objects, each within 0.15 m
  in world x of a random point inside a plane polygon (the jitter is not
  checked against the polygon again);
- keeps the objects `minDistanceBetweenObjects` apart and keeps them out of
  the bin's clear radius.

Objects that the player throws into the bin are destroyed elsewhere. The
spawner prunes them on the next plane update and tops the count back up.

The modules follow the parts of the class:

| module | file | part of the class |
|---|---|---|
| `Vectors` | `vectors.dfy` | Vector2/Vector3 arithmetic, distances, a plane's transform |
| `Polygon` | `polygon.dfy` | `ComputePolygonArea` (the shoelace formula) |
| `BoundingBox` | `bounds.dfy` | `GetBounds` and the bounds centre of `ComputePlaneCenterWorld` |
| `Winding` | `winding.dfy` | `PointInPolygon` and `Cross` (the winding-number test) |
| `Draws` | `draws.dfy` | the `UnityEngine.Random` calls, as an explicit stream of draws |
| `Planes` | `planes.dfy` | the plane survey of `OnPlanesChanged`; the eligible planes and the area-weighted choice of the fill |
| `Settings` | `settings.dfy` | the inspector fields |
| `PlacementRegistry` | `registry.dfy` | the paired lists `spawnedObjects` / `placedPositions` and `CleanSpawnedList` |
| `Placement` | `placement.dfy` | `EstimatePrefabClearRadius`, `CanPlaceAt`, `SpawnRandomPrefabAt`, and one round's sampling on a plane |
| `Fill` | `fill.dfy` | the `TryFillSpawnsUntilMax` coroutine |
| `Spawner` | `spawner.dfy` | `OnPlanesChanged` and the state kept between updates |

Modelling choices:

- Coordinates are reals.
- A plane's transform is an affine `Frame`: origin plus right, up and forward
  axes.
- `Vector3.Distance(a, b) < d` is compared as squared distance against `d * d`
  (`TooClose`). This is exact for `d > 0`, and no distance is below a
  non-positive bound.
- Every call to `UnityEngine.Random` reads the next value of a stream
  `draw: nat -> real` at a cursor `k`. Each operation returns the advanced
  cursor.
- A destroyed Unity object (a `null` entry in `spawnedObjects`) is the slot
  `Destroyed`.

All paths below are relative to the repository root. The one core source file
is `ARCleanupConcept/Assets/MobileARTemplateAssets/Scripts/PlaneAreaChecker.cs`.

## Model

| member | source | states |
|---|---|---|
| Polygon.PolygonArea | ARCleanupConcept/Assets/MobileARTemplateAssets/Scripts/PlaneAreaChecker.cs:356-368 | The area is never negative, and a boundary of fewer than three vertices has none. |
| Polygon.ComputePolygonArea | ARCleanupConcept/Assets/MobileARTemplateAssets/Scripts/PlaneAreaChecker.cs:356-368 | The loop over the edges (i, (i + 1) mod n) returns half the absolute shoelace sum of the closed boundary: the unsigned area. |
| Polygon.ChainConcat | ARCleanupConcept/Assets/MobileARTemplateAssets/Scripts/PlaneAreaChecker.cs:360-366 | The edge sum of s followed by t is the edge sum of s, plus the edge from the last vertex of s to the first of t, plus the edge sum of t. |
| Polygon.ChainReverse | ARCleanupConcept/Assets/MobileARTemplateAssets/Scripts/PlaneAreaChecker.cs:360-366 | Walking a chain backwards negates its edge sum. |
| Polygon.AreaReverse | ARCleanupConcept/Assets/MobileARTemplateAssets/Scripts/PlaneAreaChecker.cs:356-368 | A boundary listed clockwise has the same area as the same boundary listed anticlockwise. |
| Polygon.AreaRotate | ARCleanupConcept/Assets/MobileARTemplateAssets/Scripts/PlaneAreaChecker.cs:356-368 | The area does not depend on which vertex the boundary starts at. |
| Polygon.RectangleArea | ARCleanupConcept/Assets/MobileARTemplateAssets/Scripts/PlaneAreaChecker.cs:356-368 | An axis-aligned w x h rectangle has area w * h. |
| BoundingBox.Bounds | ARCleanupConcept/Assets/MobileARTemplateAssets/Scripts/PlaneAreaChecker.cs:377-387 | Every vertex lies in the box, and each of its four sides is reached by some vertex: it is the smallest such box. |
| BoundingBox.BoundsCenter | ARCleanupConcept/Assets/MobileARTemplateAssets/Scripts/PlaneAreaChecker.cs:217-224 | The bin's local position lies in the bounds and is equally far from both sides on each axis. |
| Winding.EdgeWinding | ARCleanupConcept/Assets/MobileARTemplateAssets/Scripts/PlaneAreaChecker.cs:398-413 | An edge adds +1 only when it crosses the point's horizontal line upwards (lower end at or below it, upper end strictly above), -1 only when it crosses downwards, and a horizontal edge adds nothing. |
| Winding.PointInPolygon | ARCleanupConcept/Assets/MobileARTemplateAssets/Scripts/PlaneAreaChecker.cs:389-416 | The loop reports inside exactly when the winding number of the closed boundary around the point is non-zero. |
| Winding.OutsideVerticalSpan | ARCleanupConcept/Assets/MobileARTemplateAssets/Scripts/PlaneAreaChecker.cs:389-416 | A point at or above every vertex, or below every vertex, is reported outside. |
| Winding.WindChainRightOfAll | ARCleanupConcept/Assets/MobileARTemplateAssets/Scripts/PlaneAreaChecker.cs:389-416 | Right of every vertex, the crossings telescope to the difference between the last and the first vertex being above the point. |
| Winding.WindChainLeftOfAll | ARCleanupConcept/Assets/MobileARTemplateAssets/Scripts/PlaneAreaChecker.cs:389-416 | Left of every vertex, no edge counts. |
| Winding.InsideWithinBounds | ARCleanupConcept/Assets/MobileARTemplateAssets/Scripts/PlaneAreaChecker.cs:389-416 | Every point reported inside lies in the boundary's bounds and strictly below their top edge, so a sample outside the bounds is always rejected. |
| Winding.RectangleInside | ARCleanupConcept/Assets/MobileARTemplateAssets/Scripts/PlaneAreaChecker.cs:389-416 | On a rectangle the test is exact up to its half-open sides: inside if and only if x0 < x <= x1 and y0 <= y < y1. |
| Draws.RangeF | ARCleanupConcept/Assets/MobileARTemplateAssets/Scripts/PlaneAreaChecker.cs:137-140 | A float draw lies in [lo, hi], and both ends can be drawn. |
| Draws.RangeI | ARCleanupConcept/Assets/MobileARTemplateAssets/Scripts/PlaneAreaChecker.cs:246 | An index draw of Range(0, n) is a valid index: 0 <= i < n. |
| Draws.CircleX | ARCleanupConcept/Assets/MobileARTemplateAssets/Scripts/PlaneAreaChecker.cs:254 | The x of a point of the unit disc lies in [-1, 1]. |
| Planes.SurveyPlanes | ARCleanupConcept/Assets/MobileARTemplateAssets/Scripts/PlaneAreaChecker.cs:66-83 | The best area lies between 0 and the total, and both are 0 when there is no best plane. The best plane is HorizontalUp with positive area. It is at least as large as every horizontal plane and strictly larger than every earlier one, so it is the first largest. |
| Planes.SurveySingle | ARCleanupConcept/Assets/MobileARTemplateAssets/Scripts/PlaneAreaChecker.cs:71-77 | A single plane adds its area to the total when it is HorizontalUp and nothing otherwise. |
| Planes.SurveyNoBest | ARCleanupConcept/Assets/MobileARTemplateAssets/Scripts/PlaneAreaChecker.cs:68-83 | There is no best plane if and only if every horizontal plane has zero area, and if and only if the total is zero. |
| Planes.SurveyIgnoresNonHorizontal | ARCleanupConcept/Assets/MobileARTemplateAssets/Scripts/PlaneAreaChecker.cs:71-74 | Planes that are not HorizontalUp change neither the total nor the best plane. |
| Planes.SurveyTotalAppend | ARCleanupConcept/Assets/MobileARTemplateAssets/Scripts/PlaneAreaChecker.cs:71-77 | The total over two lists of planes is the sum of their totals; with Planes.SurveySingle, the total is the sum of the HorizontalUp areas. |
| Planes.EligiblePlanes | ARCleanupConcept/Assets/MobileARTemplateAssets/Scripts/PlaneAreaChecker.cs:156-165 | The candidate list holds exactly the HorizontalUp planes of area above 0.001, in plane order, each with its area. |
| Planes.PickWeighted | ARCleanupConcept/Assets/MobileARTemplateAssets/Scripts/PlaneAreaChecker.cs:169-177 | The chosen candidate is the first whose cumulative area reaches the draw, or the first candidate when none does. |
| Planes.PrefixMonotone | ARCleanupConcept/Assets/MobileARTemplateAssets/Scripts/PlaneAreaChecker.cs:171-176 | With positive areas the cumulative area strictly increases. |
| Planes.PickWeightedSlices | ARCleanupConcept/Assets/MobileARTemplateAssets/Scripts/PlaneAreaChecker.cs:169-177 | For a draw in [0, total], candidate k is chosen if and only if the draw falls in k's slice of the total, whose width is k's area. |
| PlacementRegistry.Register | ARCleanupConcept/Assets/MobileARTemplateAssets/Scripts/PlaneAreaChecker.cs:277-279 | Both lists grow by one entry, the new object and its position, with the earlier entries unchanged; aligned lists stay aligned. |
| PlacementRegistry.SpacedAppend | ARCleanupConcept/Assets/MobileARTemplateAssets/Scripts/PlaneAreaChecker.cs:298-305 | A position cleared by minDistance + radius from every recorded one keeps the recorded positions minDistance apart. |
| PlacementRegistry.Destroy | ARCleanupConcept/Assets/Scripts/GarbageCan.cs:75 | Destroying one object leaves a null slot at its index and every other slot as it was; lengths and positions are unchanged, and alignment is kept. |
| PlacementRegistry.LiveOnlyAppend | ARCleanupConcept/Assets/MobileARTemplateAssets/Scripts/PlaneAreaChecker.cs:334-342 | Keeping the live objects of two lists joined is joining the live objects of each. |
| PlacementRegistry.SweepObjects | ARCleanupConcept/Assets/MobileARTemplateAssets/Scripts/PlaneAreaChecker.cs:334-342 | The backward removal loop drops exactly the destroyed objects below its start and keeps the order of the others. |
| PlacementRegistry.SweepAligned | ARCleanupConcept/Assets/MobileARTemplateAssets/Scripts/PlaneAreaChecker.cs:336-340 | On aligned lists, removing the position at the same index keeps them aligned. |
| PlacementRegistry.SweepSpaced | ARCleanupConcept/Assets/MobileARTemplateAssets/Scripts/PlaneAreaChecker.cs:334-342 | The loop only removes positions, so spaced positions stay spaced. |
| PlacementRegistry.Clean | ARCleanupConcept/Assets/MobileARTemplateAssets/Scripts/PlaneAreaChecker.cs:331-353 | Afterwards the objects are exactly the live ones, in order, with as many positions as objects. Aligned lists keep every live object's own position. |
| PlacementRegistry.CleanSpaced | ARCleanupConcept/Assets/MobileARTemplateAssets/Scripts/PlaneAreaChecker.cs:331-342 | Pruning aligned, spaced lists leaves the positions spaced. |
| PlacementRegistry.DestroyThenClean | ARCleanupConcept/Assets/MobileARTemplateAssets/Scripts/PlaneAreaChecker.cs:331-353 | Destroying object k of fully live aligned lists and pruning removes exactly the pair at k. |
| Placement.ClearRadius | ARCleanupConcept/Assets/MobileARTemplateAssets/Scripts/PlaneAreaChecker.cs:317-328 | The radius always lies in [0.05, 0.6]. It is 0.12 without a collider and half the extents magnitude when that is already in range. |
| Placement.ClearRadiusMonotone | ARCleanupConcept/Assets/MobileARTemplateAssets/Scripts/PlaneAreaChecker.cs:319-325 | A larger collider never gets a smaller clear radius, so the clamping at 0.05 and 0.6 keeps the order of collider sizes. |
| Placement.CanPlaceAt | ARCleanupConcept/Assets/MobileARTemplateAssets/Scripts/PlaneAreaChecker.cs:298-314 | True if and only if the point is at least minDistance + radius from every recorded position and, when there is a bin, at least binClearRadius + radius from it. |
| Placement.Jitter | ARCleanupConcept/Assets/MobileARTemplateAssets/Scripts/PlaneAreaChecker.cs:254-255 | A jittered sample keeps y and z and moves x by at most 0.15. |
| Placement.SpawnRandomPrefabAt | ARCleanupConcept/Assets/MobileARTemplateAssets/Scripts/PlaneAreaChecker.cs:242-286 | Without prefabs nothing is placed. A failure changes nothing, and means that every jittered sample and worldPos itself were not clear for the drawn prefab. A success records exactly one object of the prefab drawn first, with its clear radius, clear of all recorded positions and the bin. Its position is the first clear jittered sample, or worldPos once every jittered sample failed. It differs from worldPos only in x, by at most 0.15. |
| Placement.AttemptOnPlane | ARCleanupConcept/Assets/MobileARTemplateAssets/Scripts/PlaneAreaChecker.cs:137-149 | One attempt's sample is exactly the pair of draws at its cursor, spread across the boundary's bounds. When it places nothing it changes nothing, and the attempt was rejected: the sample is outside the polygon, its surface point is within the bin's radius, there is no prefab, or the point itself is not clear for the drawn prefab. On success the sample is inside the polygon and its bounds, and the surface point is outside the bin's radius. |
| Placement.TryPlaceOnPlane | ARCleanupConcept/Assets/MobileARTemplateAssets/Scripts/PlaneAreaChecker.cs:129-151 | A round on one plane records at most one object. Every attempt before the successful one was rejected. A round that places nothing made all maxPlacementAttemptsPerItem attempts, every one rejected, at cursors at least two draws apart, the first at the round's start. On success the sample lies inside the polygon and in its bounds, and the surface point is outside the bin's radius. |
| Fill.Budget | ARCleanupConcept/Assets/MobileARTemplateAssets/Scripts/PlaneAreaChecker.cs:120 | The cap on rounds is the larger of 200 and maxSpawns * 30. |
| Fill.RegisterAllStep | ARCleanupConcept/Assets/MobileARTemplateAssets/Scripts/PlaneAreaChecker.cs:277-279 | Recording objects one at a time is recording the whole sequence at once. |
| Fill.PlacementsExtend | ARCleanupConcept/Assets/MobileARTemplateAssets/Scripts/PlaneAreaChecker.cs:298-314 | An object placed clear of everything recorded so far extends a valid placement sequence. |
| Fill.PlacementsKeepSpacing | ARCleanupConcept/Assets/MobileARTemplateAssets/Scripts/PlaneAreaChecker.cs:298-305 | A valid placement sequence added to spaced positions leaves all of them minDistance apart. |
| Fill.FillUntilMax | ARCleanupConcept/Assets/MobileARTemplateAssets/Scripts/PlaneAreaChecker.cs:115-214 | At most Budget rounds run, with at most one object per round. Each object is clear of the bin and of everything recorded before it. A count below maxSpawns ends at most at maxSpawns, and a full count runs no round. Across planes with no eligible plane nothing is added. The loop stops only on a full count, a spent budget or no eligible plane. Every round but a final one that found no eligible plane either added an object or is a recorded miss. A miss sampled the hinted plane, or across planes an eligible tracked plane. It made all maxPlacementAttemptsPerItem attempts, and each was rejected against the objects recorded before that round. |
| Fill.FillRound | ARCleanupConcept/Assets/MobileARTemplateAssets/Scripts/PlaneAreaChecker.cs:124-198 | A round stops exactly when it fills across planes and no plane is eligible, and then changes nothing. Otherwise it samples the hinted plane or an eligible tracked plane. It either records one object placed near a sample inside that plane's polygon, or changes nothing after all its attempts were rejected. |
| Spawner.ThresholdMeaning | ARCleanupConcept/Assets/MobileARTemplateAssets/Scripts/PlaneAreaChecker.cs:85-87 | In SinglePlane mode the threshold is met if and only if some HorizontalUp plane of positive area reaches it alone. |
| Spawner.OnPlanesChanged | ARCleanupConcept/Assets/MobileARTemplateAssets/Scripts/PlaneAreaChecker.cs:61-113 | The registry is pruned. A fill starts if and only if the threshold is met and either the total grew by more than 0.001 or fewer than maxSpawns objects remain. The hint is present exactly when the survey found a best plane, and is that plane. An existing bin is kept, and a missing one is placed at `BinPosition` of the best plane exactly when a fill starts, there is a best plane and a bin prefab. The total is remembered. |
| Spawner.BinPosition | ARCleanupConcept/Assets/MobileARTemplateAssets/Scripts/PlaneAreaChecker.cs:217-224 | The bin is binYOffset above the plane's height when the plane is horizontal, whatever its yaw. On an unrotated plane it also stands over the bounds centre, offset by the plane's origin and equally far from both sides of the bounds on each axis. |
| Spawner.DestroyKeepsHealthy | ARCleanupConcept/Assets/MobileARTemplateAssets/Scripts/PlaneAreaChecker.cs:331-342 | An object destroyed elsewhere leaves aligned, spaced lists aligned and spaced. |
| Spawner.HandlePlanesChanged | ARCleanupConcept/Assets/MobileARTemplateAssets/Scripts/PlaneAreaChecker.cs:61-214 | A firing update keeps the pruned objects and appends the fill's placements, each clear of the bin and of everything recorded before it. A fill stops only on a full count, a spent budget, or, across planes, no eligible plane. Every round of a firing update either placed an object or is a recorded miss, whose attempts on its plane were all rejected. A final round that found no eligible plane is the only exception. A non-firing update only prunes and runs no round. Either way the lists stay aligned and minDistance apart, only live objects remain, and the count never passes maxSpawns when it started below it. |
| Spawner.RectangleBelowThreshold | ARCleanupConcept/Assets/MobileARTemplateAssets/Scripts/PlaneAreaChecker.cs:85-112 | In TotalArea mode, with no objects recorded, one rectangle below the threshold starts no fill and changes nothing but the remembered total. |
| Spawner.RectangleReachesThreshold | ARCleanupConcept/Assets/MobileARTemplateAssets/Scripts/PlaneAreaChecker.cs:85-112 | In TotalArea mode one rectangle at the threshold, grown past the hysteresis, starts a fill and places the bin. |

## Left out

- Unity's lifecycle and scene graph are not modelled: `Reset`, `OnEnable` and
  `OnDisable` (the event subscription), `Instantiate`, `Destroy`, `LookAt`
  towards the camera, rotations, and `TemporarilyHoldKinematic`. A new object
  is recorded at the position it was instantiated at.
- `Debug.Log` is not modelled.
- `SpawnBinAt` destroys an existing bin before making a new one. That path is
  never taken, because `OnPlanesChanged` only calls it when there is no bin.
  The model records the bin's position when `binPrefab` is set.
- Coroutines and timing: the fill started by an update runs to completion on
  the planes of that update before the next update. The frame yields and the
  0.05 s pauses between rounds are not modelled. Neither are planes changing
  during a fill, nor several fills running at once (the class has no guard
  against that).
- Floating point: areas, sums and distances are exact reals. The
  double-precision accumulator of `ComputePolygonArea`, its float cast, and
  float rounding in the 0.001 hysteresis and the weighted pick are not
  modelled.
- Plane transforms are affine frames, not quaternion rotations, so
  `TransformPoint` is modelled up to its linear form.
- Random draws: only the range of each draw is modelled, not its distribution.
  A draw outside [0, 1] is clamped.
- Fill.Budget: does not model 32-bit overflow of `maxSpawns * 30`, which would
  take a `maxSpawns` above 71 million.
- BoundingBox.Bounds: requires a non-empty boundary, because `GetBounds` reads
  `poly[0]` and throws on an empty one. A hint plane always has positive area,
  so it has at least three vertices.
- Fill.FillUntilMax: for each added object it states the spacing, bin and
  prefab guarantees, but not which plane it landed on. That fact is stated
  per round by `Fill.FillRound` and `Placement.TryPlaceOnPlane`. Rounds that
  added nothing are recorded with their plane.
- `CleanSpawnedList` rebuilds the positions from the objects'
  current transforms. The model uses each object's recorded position, because
  objects that are not moved keep it.
- `spawnedObjects.Count` counts destroyed slots too. The model counts them the
  same way, so objects collected during a fill still count until the next
  update prunes them.
- The `autoSpawnOnce` and `hasSpawned` fields are declared but never read, so
  they are not modelled.
- The game manager's reset of the spawner (`GameManager.cs`) and the bin's
  collection of trash (`GarbageCan.cs`) call a class that is not part of this
  model. Collection is modelled only as `PlacementRegistry.Destroy`.
- The weighted draw is `Random.Range(0, totalArea)` on floats, which can
  return `totalArea`; the last candidate's slice includes it.

=== FILE: bounds.dfy ===
/**
 * Axis-aligned bounds of a boundary (GetBounds) and their centre, which is
 * where the bin is placed (ComputePlaneCenterWorld).
 */
module BoundingBox {
  import opened Vectors

  datatype Box = Box(lo: Vec2, hi: Vec2)

  predicate InBox(p: Vec2, b: Box)
  {
    b.lo.x <= p.x <= b.hi.x && b.lo.y <= p.y <= b.hi.y
  }

  /**
   * The componentwise minimum and maximum of the vertices, folded left from
   * the first vertex. GetBounds reads poly[0], so the boundary must not be
   * empty.
   */
  function Bounds(poly: seq<Vec2>): (b: Box)
    requires |poly| > 0
    ensures forall i :: 0 <= i < |poly| ==> InBox(poly[i], b)
    ensures exists i :: 0 <= i < |poly| && poly[i].x == b.lo.x
    ensures exists i :: 0 <= i < |poly| && poly[i].y == b.lo.y
    ensures exists i :: 0 <= i < |poly| && poly[i].x == b.hi.x
    ensures exists i :: 0 <= i < |poly| && poly[i].y == b.hi.y
    decreases |poly|
  {
    if |poly| == 1 then
      Box(poly[0], poly[0])
    else
      var init := poly[..|poly| - 1];
      var b := Bounds(init);
      var v := poly[|poly| - 1];
      assert forall i :: 0 <= i < |init| ==> init[i] == poly[i];
      Box(Min(b.lo, v), Max(b.hi, v))
  }

  /** The centre of the bounds, (min + max) * 0.5. */
  function Center(b: Box): Vec2
  {
    Vec2((b.lo.x + b.hi.x) * 0.5, (b.lo.y + b.hi.y) * 0.5)
  }

  /**
   * The bin's local position: it lies in the bounds of the boundary, and at
   * the same distance from both sides on each axis.
   */
  function BoundsCenter(poly: seq<Vec2>): (c: Vec2)
    requires |poly| > 0
    ensures InBox(c, Bounds(poly))
    ensures c.x - Bounds(poly).lo.x == Bounds(poly).hi.x - c.x
    ensures c.y - Bounds(poly).lo.y == Bounds(poly).hi.y - c.y
  {
    Center(Bounds(poly))
  }
}

=== FILE: draws.dfy ===
/**
 * Random draws made explicit. A run reads a stream of reals, one per call to
 * UnityEngine.Random; each draw is taken as a point of [0, 1] (values outside
 * are clamped) and mapped onto the range the call asks for. Only the range of
 * each draw matters to the properties, not its distribution.
 */
module Draws {

  /** A draw as a point of [0, 1]; in-range draws are kept as they are. */
  function Unit(u: real): (r: real)
    ensures 0.0 <= r <= 1.0
    ensures 0.0 <= u <= 1.0 ==> r == u
  {
    if u < 0.0 then 0.0 else if u > 1.0 then 1.0 else u
  }

  /** The point t of the way from lo to hi: lo at 0, hi at 1, between them for t in [0, 1]. */
  function Lerp(lo: real, hi: real, t: real): (r: real)
    requires 0.0 <= t <= 1.0
    ensures lo <= hi ==> lo <= r <= hi
    ensures t == 0.0 ==> r == lo
    ensures t == 1.0 ==> r == hi
  {
    var d := hi - lo;
    var x := t * d;
    assert lo <= hi ==> 0.0 <= x <= d by {
      if lo <= hi {
        assert (1.0 - t) * d >= 0.0;
      }
    }
    lo + x
  }

  /** Random.Range(lo, hi) on floats: a value of [lo, hi], both ends included. */
  function RangeF(lo: real, hi: real, u: real): (r: real)
    ensures lo <= hi ==> lo <= r <= hi
    ensures Unit(u) == 0.0 ==> r == lo
    ensures Unit(u) == 1.0 ==> r == hi
  {
    Lerp(lo, hi, Unit(u))
  }

  /** Random.Range(0, n) on ints: an index of [0, n), the upper end excluded. */
  function RangeI(n: int, u: real): (r: int)
    ensures n > 0 ==> 0 <= r < n
  {
    if n <= 0 then 0
    else
      var k := (Unit(u) * n as real).Floor;
      if k < 0 then 0 else if k >= n then n - 1 else k
  }

  /**
   * The x component of Random.insideUnitCircle, the only component the
   * jitter keeps.
   */
  function CircleX(u: real): (r: real)
    ensures -1.0 <= r <= 1.0
  {
    2.0 * Unit(u) - 1.0
  }
}

=== FILE: fill.dfy ===
/**
 * The fill loop of TryFillSpawnsUntilMax, run to completion over one snapshot
 * of the tracked planes: rounds of one placement attempt each, until the
 * target count is reached, the round budget is spent, or (when filling
 * across planes) no plane is large enough.
 */
module Fill {
  import opened Options
  import opened Vectors
  import opened Polygon
  import opened Planes
  import opened Settings
  import opened PlacementRegistry
  import opened Placement
  import opened Draws

  /** Mathf.Max(200, maxSpawns * 30): the cap on rounds per fill. */
  function Budget(maxSpawns: int): (b: int)
    ensures b >= 200 && b >= maxSpawns * 30
    ensures b == 200 || b == maxSpawns * 30
  {
    if 200 >= maxSpawns * 30 then 200 else maxSpawns * 30
  }

  function Lives(items: seq<Item>): (r: seq<Slot>)
    ensures |r| == |items|
    ensures forall i :: 0 <= i < |items| ==> r[i] == Live(items[i])
  {
    seq(|items|, i requires 0 <= i < |items| => Live(items[i]))
  }

  function Positions(items: seq<Item>): (r: seq<Vec3>)
    ensures |r| == |items|
    ensures forall i :: 0 <= i < |items| ==> r[i] == items[i].pos
  {
    seq(|items|, i requires 0 <= i < |items| => items[i].pos)
  }

  /** The registry after recording the given objects in order. */
  function RegisterAll(reg: Registry, items: seq<Item>): (r: Registry)
    ensures |r.objects| == |reg.objects| + |items|
    ensures Aligned(reg) ==> Aligned(r)
  {
    Registry(reg.objects + Lives(items), reg.positions + Positions(items))
  }

  lemma RegisterAllStep(reg: Registry, items: seq<Item>, it: Item)
    ensures RegisterAll(reg, items + [it]) == Register(RegisterAll(reg, items), it)
  {
    assert Lives(items + [it]) == Lives(items) + [Live(it)];
    assert Positions(items + [it]) == Positions(items) + [it.pos];
  }

  /**
   * Each object of the sequence has a clear radius from its prefab, is clear
   * of the bin, and is clear of every position recorded before it: those of
   * the base list and those of the earlier objects.
   */
  predicate Placements(cfg: Config, bin: Option<Vec3>, base: seq<Vec3>, items: seq<Item>)
  {
    && (forall i :: 0 <= i < |items| ==>
          && items[i].prefab < |cfg.prefabs|
          && items[i].radius == ClearRadius(cfg.prefabs[items[i].prefab])
          && (bin.Some? ==> !TooClose(items[i].pos, bin.value, cfg.binClearRadius + items[i].radius)))
    && (forall i, j :: 0 <= i < |items| && 0 <= j < |base| ==>
          !TooClose(items[i].pos, base[j], cfg.minDistance + items[i].radius))
    && (forall i, j :: 0 <= j < i < |items| ==>
          !TooClose(items[i].pos, items[j].pos, cfg.minDistance + items[i].radius))
  }

  /** An object placed clear of everything recorded extends a placement sequence. */
  lemma PlacementsExtend(cfg: Config, bin: Option<Vec3>, base: seq<Vec3>, items: seq<Item>, it: Item)
    requires Placements(cfg, bin, base, items)
    requires it.prefab < |cfg.prefabs| && it.radius == ClearRadius(cfg.prefabs[it.prefab])
    requires Clear(cfg, base + Positions(items), bin, it.pos, it.radius)
    ensures Placements(cfg, bin, base, items + [it])
  {
    var ps := base + Positions(items);
    assert forall j :: 0 <= j < |base| ==> ps[j] == base[j];
    assert forall j :: 0 <= j < |items| ==> ps[|base| + j] == items[j].pos;
  }

  /** A placement sequence keeps spaced positions spaced by minDistance. */
  lemma PlacementsKeepSpacing(cfg: Config, bin: Option<Vec3>, base: seq<Vec3>, items: seq<Item>)
    requires Placements(cfg, bin, base, items)
    requires Spaced(base, cfg.minDistance)
    ensures Spaced(base + Positions(items), cfg.minDistance)
  {
    var ps := base + Positions(items);
    var d := cfg.minDistance;
    forall a, b | 0 <= a < b < |ps|
      ensures !TooClose(ps[a], ps[b], d)
    {
      if b >= |base| {
        var i := b - |base|;
        var r := items[i].radius;
        assert ps[b] == items[i].pos;
        TooCloseMonotone(ps[b], ps[a], d, d + r);
        TooCloseSymmetric(ps[a], ps[b], d);
        if a >= |base| {
          assert ps[a] == items[a - |base|].pos;
        }
      }
    }
  }

  /** The rounds fill across planes rather than on the hinted plane. */
  predicate AcrossPlanes(cfg: Config, hint: Option<Plane>)
  {
    !(cfg.mode == SinglePlane && hint.Some?)
  }

  /** The plane a round samples: the hinted plane, or across planes an eligible tracked one. */
  predicate RoundPlane(cfg: Config, planes: seq<Plane>, hint: Option<Plane>, p: Plane)
  {
    if AcrossPlanes(cfg, hint) then p in planes && Eligible(p) else p == hint.value
  }

  /**
   * A round that placed nothing: its plane, the cursors of its attempts, and
   * how many objects the fill had added before it.
   */
  datatype Miss = Miss(plane: Plane, tried: seq<nat>, before: nat)

  /**
   * Every missed round sampled a plane the round may sample, made all
   * maxPlacementAttemptsPerItem attempts, and had each of them rejected
   * against the registry as it stood before that round.
   */
  predicate MissesRejected(cfg: Config, planes: seq<Plane>, hint: Option<Plane>, reg: Registry, bin: Option<Vec3>,
                           draw: nat -> real, added: seq<Item>, misses: seq<Miss>)
  {
    forall m :: m in misses ==>
      && RoundPlane(cfg, planes, hint, m.plane)
      && |m.plane.boundary| > 0
      && m.before <= |added|
      && |m.tried| == (if cfg.maxAttemptsPerItem < 0 then 0 else cfg.maxAttemptsPerItem)
      && AllRejected(cfg, m.plane, RegisterAll(reg, added[..m.before]), bin, draw, m.tried)
  }

  /** Recording a further object leaves the record of earlier misses intact. */
  lemma MissesGrow(cfg: Config, planes: seq<Plane>, hint: Option<Plane>, reg: Registry, bin: Option<Vec3>,
                   draw: nat -> real, added: seq<Item>, misses: seq<Miss>, it: Item)
    requires MissesRejected(cfg, planes, hint, reg, bin, draw, added, misses)
    ensures MissesRejected(cfg, planes, hint, reg, bin, draw, added + [it], misses)
  {
    forall m | m in misses
      ensures (added + [it])[..m.before] == added[..m.before]
    {
    }
  }

  /** A round that placed nothing against RegisterAll(reg, added) extends the record. */
  lemma MissesAppend(cfg: Config, planes: seq<Plane>, hint: Option<Plane>, reg: Registry, bin: Option<Vec3>,
                     draw: nat -> real, added: seq<Item>, misses: seq<Miss>, m: Miss)
    requires MissesRejected(cfg, planes, hint, reg, bin, draw, added, misses)
    requires RoundPlane(cfg, planes, hint, m.plane) && |m.plane.boundary| > 0 && m.before == |added|
    requires |m.tried| == (if cfg.maxAttemptsPerItem < 0 then 0 else cfg.maxAttemptsPerItem)
    requires AllRejected(cfg, m.plane, RegisterAll(reg, added), bin, draw, m.tried)
    ensures MissesRejected(cfg, planes, hint, reg, bin, draw, added, misses + [m])
  {
    assert added[..m.before] == added;
  }

  /**
   * One round of TryFillSpawnsUntilMax: choose the plane (the hinted one, or
   * one drawn by area among the eligible planes, stopping when there is
   * none) and run the attempts on it.
   */
  method FillRound(cfg: Config, planes: seq<Plane>, hint: Option<Plane>, reg: Registry, bin: Option<Vec3>,
                   draw: nat -> real, k: nat)
    returns (stop: bool, plane: Plane, placed: Option<Item>, reg': Registry, k': nat, ghost tried: seq<nat>)
    requires hint.Some? ==> |hint.value.boundary| > 0
    ensures stop <==> AcrossPlanes(cfg, hint) && |EligiblePlanes(planes)| == 0
    ensures stop ==> placed.None? && reg' == reg
    ensures !stop ==> RoundPlane(cfg, planes, hint, plane) && |plane.boundary| > 0
    ensures !stop && placed.None? ==>
      && reg' == reg
      && |tried| == (if cfg.maxAttemptsPerItem < 0 then 0 else cfg.maxAttemptsPerItem)
      && AllRejected(cfg, plane, reg, bin, draw, tried)
    ensures placed.Some? ==>
      && !stop && |plane.boundary| > 0
      && reg' == Register(reg, placed.value)
      && exists sample :: PlacedOnPlane(cfg, plane, reg, bin, sample, placed.value)
    ensures k' >= k
  {
    k' := k;
    reg' := reg;
    placed := None;
    tried := [];
    stop := false;
    if cfg.mode == SinglePlane && hint.Some? {
      plane := hint.value;
    } else {
      var candidates := EligiblePlanes(planes);
      if |candidates| == 0 {
        stop := true;
        plane := Plane([], NoAlignment, Frame(Vec3(0.0, 0.0, 0.0), Vec3(0.0, 0.0, 0.0), Vec3(0.0, 0.0, 0.0), Vec3(0.0, 0.0, 0.0)));
        return;
      }
      var r := RangeF(0.0, TotalWeight(candidates), draw(k'));
      k' := k' + 1;
      var pick := PickWeighted(candidates, r);
      plane := planes[candidates[pick].index];
      PositiveAreaHasThreeVertices(plane.boundary);
    }
    var sample;
    placed, sample, reg', k', tried := TryPlaceOnPlane(cfg, plane, reg, bin, draw, k');
  }

  /**
   * TryFillSpawnsUntilMax. Each round places at most one object, on the
   * hinted plane in SinglePlane mode, otherwise on a plane drawn by area among
   * the eligible ones. `rounds` is safeLoopGuard.
   */
  method FillUntilMax(cfg: Config, planes: seq<Plane>, hint: Option<Plane>, reg: Registry, bin: Option<Vec3>,
                      draw: nat -> real, k: nat)
    returns (reg': Registry, added: seq<Item>, rounds: nat, k': nat, ghost misses: seq<Miss>)
    requires hint.Some? ==> |hint.value.boundary| > 0
    ensures rounds <= Budget(cfg.maxSpawns)
    ensures |added| <= rounds
    ensures reg' == RegisterAll(reg, added)
    ensures Placements(cfg, bin, reg.positions, added)
    ensures |reg.objects| < cfg.maxSpawns ==> |reg'.objects| <= cfg.maxSpawns
    ensures |reg.objects| >= cfg.maxSpawns ==> rounds == 0 && added == []
    ensures AcrossPlanes(cfg, hint) && |EligiblePlanes(planes)| == 0 ==> added == [] && rounds <= 1
    ensures |reg'.objects| >= cfg.maxSpawns || rounds == Budget(cfg.maxSpawns)
      || (AcrossPlanes(cfg, hint) && |EligiblePlanes(planes)| == 0)
    ensures |added| + |misses| == rounds || (AcrossPlanes(cfg, hint) && |EligiblePlanes(planes)| == 0 && rounds == 1)
    ensures MissesRejected(cfg, planes, hint, reg, bin, draw, added, misses)
    ensures k' >= k
  {
    var target := cfg.maxSpawns;
    var maxTotalAttempts := Budget(cfg.maxSpawns);
    reg' := reg;
    added := [];
    rounds := 0;
    k' := k;
    misses := [];
    while |reg'.objects| < target && rounds < maxTotalAttempts
      invariant rounds <= maxTotalAttempts
      invariant |added| + |misses| == rounds
      invariant reg' == RegisterAll(reg, added)
      invariant Placements(cfg, bin, reg.positions, added)
      invariant MissesRejected(cfg, planes, hint, reg, bin, draw, added, misses)
      invariant |reg.objects| < target ==> |reg'.objects| <= target
      invariant rounds > 0 ==> |reg.objects| < target
      invariant AcrossPlanes(cfg, hint) && |EligiblePlanes(planes)| == 0 ==> added == [] && rounds == 0
      invariant k' >= k
      decreases maxTotalAttempts - rounds
    {
      rounds := rounds + 1;
      var stop, plane, placed, next, k2, tried := FillRound(cfg, planes, hint, reg', bin, draw, k');
      if stop {
        break;
      }
      k' := k2;
      if placed.Some? {
        var item := placed.value;
        PlacementsExtend(cfg, bin, reg.positions, added, item);
        RegisterAllStep(reg, added, item);
        MissesGrow(cfg, planes, hint, reg, bin, draw, added, misses, item);
        added := added + [item];
      } else {
        MissesAppend(cfg, planes, hint, reg, bin, draw, added, misses, Miss(plane, tried, |added|));
        misses := misses + [Miss(plane, tried, |added|)];
      }
      reg' := next;
    }
  }
}

=== FILE: options.dfy ===
/** The optional value used wherever the engine holds a reference that may be
    null: the best plane of an update, the bin, the prefab collider. */
module Options {

  datatype Option<+T> = None | Some(value: T)
}

=== FILE: placement.dfy ===
/**
 * Placing one trash object: the clear radius of a prefab, the spacing and
 * bin-exclusion test (CanPlaceAt), the jittered placement near a surface
 * point (SpawnRandomPrefabAt) and the sampling attempts on one plane that the
 * fill loop makes each round.
 */
module Placement {
  import opened Options
  import opened Vectors
  import opened BoundingBox
  import opened Winding
  import opened Planes
  import opened Settings
  import opened PlacementRegistry
  import opened Draws

  /** Mathf.Clamp. */
  function Clamp(v: real, lo: real, hi: real): real
  {
    if v < lo then lo else if v > hi then hi else v
  }

  /**
   * EstimatePrefabClearRadius: half the collider's extents magnitude, clamped
   * to [0.05, 0.6]; 0.12 for a prefab without a collider.
   */
  function ClearRadius(p: Prefab): (r: real)
    ensures 0.05 <= r <= 0.6
    ensures p.colliderExtent.None? ==> r == 0.12
    ensures p.colliderExtent.Some? && 0.1 <= p.colliderExtent.value <= 1.2 ==> r == p.colliderExtent.value * 0.5
  {
    match p.colliderExtent
    case None => 0.12
    case Some(m) => Clamp(m * 0.5, 0.05, 0.6)
  }

  /** A larger collider never gets a smaller clear radius. */
  lemma ClearRadiusMonotone(m1: real, m2: real)
    requires m1 <= m2
    ensures ClearRadius(Prefab(Some(m1))) <= ClearRadius(Prefab(Some(m2)))
  {
  }

  /**
   * A position is clear for an object of the given radius when it is at
   * least minDistance + radius from every recorded position and, when there
   * is a bin, at least binClearRadius + radius from the bin.
   */
  predicate Clear(cfg: Config, positions: seq<Vec3>, bin: Option<Vec3>, pos: Vec3, radius: real)
  {
    && (forall i :: 0 <= i < |positions| ==> !TooClose(pos, positions[i], cfg.minDistance + radius))
    && (bin.Some? ==> !TooClose(pos, bin.value, cfg.binClearRadius + radius))
  }

  /** CanPlaceAt: the loop over the recorded positions, then the bin check. */
  method CanPlaceAt(cfg: Config, positions: seq<Vec3>, bin: Option<Vec3>, pos: Vec3, radius: real)
    returns (ok: bool)
    ensures ok <==> Clear(cfg, positions, bin, pos, radius)
  {
    var minDist := cfg.minDistance + radius;
    var i := 0;
    while i < |positions|
      invariant 0 <= i <= |positions|
      invariant forall j :: 0 <= j < i ==> !TooClose(pos, positions[j], minDist)
    {
      if TooClose(pos, positions[i], minDist) {
        return false;
      }
      i := i + 1;
    }
    if bin.Some? {
      if TooClose(pos, bin.value, cfg.binClearRadius + radius) {
        return false;
      }
    }
    return true;
  }

  /** The spread of the jitter around a surface point, in metres. */
  const JitterRadius: real := 0.15

  /**
   * A jittered sample: the unit-circle offset is cast onto (x, y) and the y is
   * then reset, so only x moves.
   */
  function Jitter(worldPos: Vec3, u: real): (s: Vec3)
    ensures s.y == worldPos.y && s.z == worldPos.z
    ensures worldPos.x - JitterRadius <= s.x <= worldPos.x + JitterRadius
  {
    Vec3(worldPos.x + CircleX(u) * JitterRadius, worldPos.y, worldPos.z)
  }

  /** The sample of jitter attempt a when the prefab was drawn at cursor k. */
  function JitterSample(worldPos: Vec3, draw: nat -> real, k: nat, a: nat): Vec3
  {
    Jitter(worldPos, draw(k + 1 + a))
  }

  /** What a successful placement near worldPos promises about the new object. */
  predicate PlacedNear(cfg: Config, reg: Registry, bin: Option<Vec3>, worldPos: Vec3, it: Item)
  {
    && it.prefab < |cfg.prefabs|
    && it.radius == ClearRadius(cfg.prefabs[it.prefab])
    && Clear(cfg, reg.positions, bin, it.pos, it.radius)
    && it.pos.y == worldPos.y && it.pos.z == worldPos.z
    && worldPos.x - JitterRadius <= it.pos.x <= worldPos.x + JitterRadius
  }

  /**
   * The position a placement settles on: the first jittered sample that is
   * clear, or worldPos itself once every jittered sample has failed.
   */
  predicate FirstClear(cfg: Config, reg: Registry, bin: Option<Vec3>, worldPos: Vec3, draw: nat -> real, k: nat,
                       radius: real, pos: Vec3)
  {
    || (exists a :: 0 <= a < cfg.maxAttemptsPerItem && pos == JitterSample(worldPos, draw, k, a)
          && forall b :: 0 <= b < a ==> !Clear(cfg, reg.positions, bin, JitterSample(worldPos, draw, k, b), radius))
    || (pos == worldPos
          && forall a :: 0 <= a < cfg.maxAttemptsPerItem ==> !Clear(cfg, reg.positions, bin, JitterSample(worldPos, draw, k, a), radius))
  }

  /**
   * SpawnRandomPrefabAt: pick a prefab, try jittered samples until one is
   * clear, else fall back to worldPos itself if that is clear; record the new
   * object, or change nothing. The draws are read from the stream at k on.
   */
  method SpawnRandomPrefabAt(cfg: Config, reg: Registry, bin: Option<Vec3>, worldPos: Vec3, draw: nat -> real, k: nat)
    returns (placed: Option<Item>, reg': Registry, k': nat)
    ensures k' >= k
    ensures |cfg.prefabs| == 0 ==> placed.None?
    ensures placed.None? ==> reg' == reg
    ensures placed.None? && |cfg.prefabs| > 0 ==>
      !Clear(cfg, reg.positions, bin, worldPos, ClearRadius(cfg.prefabs[RangeI(|cfg.prefabs|, draw(k))]))
    ensures placed.None? && |cfg.prefabs| > 0 ==>
      forall a :: 0 <= a < cfg.maxAttemptsPerItem ==>
        !Clear(cfg, reg.positions, bin, JitterSample(worldPos, draw, k, a), ClearRadius(cfg.prefabs[RangeI(|cfg.prefabs|, draw(k))]))
    ensures placed.Some? ==> reg' == Register(reg, placed.value) && PlacedNear(cfg, reg, bin, worldPos, placed.value)
    ensures placed.Some? ==> placed.value.prefab == RangeI(|cfg.prefabs|, draw(k))
    ensures placed.Some? ==> FirstClear(cfg, reg, bin, worldPos, draw, k, placed.value.radius, placed.value.pos)
  {
    reg' := reg;
    k' := k;
    if |cfg.prefabs| == 0 {
      return None, reg', k';
    }
    var prefab := RangeI(|cfg.prefabs|, draw(k'));
    k' := k' + 1;
    var radius := ClearRadius(cfg.prefabs[prefab]);

    var chosenPos := Vec3(0.0, 0.0, 0.0);
    var found := false;
    var attempt: nat := 0;
    while attempt < cfg.maxAttemptsPerItem
      invariant k' > k
      invariant !found ==> k' == k + 1 + attempt
      invariant forall a :: 0 <= a < attempt ==> !Clear(cfg, reg.positions, bin, JitterSample(worldPos, draw, k, a), radius)
      invariant found ==> attempt < cfg.maxAttemptsPerItem && chosenPos == JitterSample(worldPos, draw, k, attempt)
      invariant found ==> Clear(cfg, reg.positions, bin, chosenPos, radius)
      invariant found ==> chosenPos.y == worldPos.y && chosenPos.z == worldPos.z
      invariant found ==> worldPos.x - JitterRadius <= chosenPos.x <= worldPos.x + JitterRadius
      decreases cfg.maxAttemptsPerItem - attempt
    {
      var sample := JitterSample(worldPos, draw, k, attempt);
      k' := k' + 1;
      var ok := CanPlaceAt(cfg, reg.positions, bin, sample, radius);
      if ok {
        chosenPos := sample;
        found := true;
        break;
      }
      attempt := attempt + 1;
    }

    if !found {
      var ok := CanPlaceAt(cfg, reg.positions, bin, worldPos, radius);
      if !ok {
        return None, reg', k';
      }
      chosenPos := worldPos;
    } else {
      assert chosenPos == JitterSample(worldPos, draw, k, attempt);
    }
    var item := Item(prefab, chosenPos, radius);
    placed := Some(item);
    reg' := Register(reg, item);
  }

  /** The world point above a boundary sample: local (x, 0.02, y) through the plane's frame. */
  function SurfacePoint(f: Frame, s: Vec2): Vec3
  {
    TransformPoint(f, Vec3(s.x, 0.02, s.y))
  }

  /** What a successful attempt on a plane promises about the sample and the new object. */
  predicate PlacedOnPlane(cfg: Config, plane: Plane, reg: Registry, bin: Option<Vec3>, sample: Vec2, it: Item)
    requires |plane.boundary| > 0
  {
    && Inside(sample, plane.boundary)
    && InBox(sample, Bounds(plane.boundary))
    && var w := SurfacePoint(plane.frame, sample);
    && !(bin.Some? && TooClose(w, bin.value, cfg.binClearRadius))
    && PlacedNear(cfg, reg, bin, w, it)
  }

  /** The boundary sample an attempt draws at cursor j: two draws across the bounds. */
  function SampleAt(b: Box, draw: nat -> real, j: nat): Vec2
  {
    Vec2(RangeF(b.lo.x, b.hi.x, draw(j)), RangeF(b.lo.y, b.hi.y, draw(j + 1)))
  }

  /**
   * Why an attempt at cursor j places nothing: its sample is outside the
   * polygon, its surface point is inside the bin's radius, there is no
   * prefab, or the point itself is not clear for the prefab drawn at j + 2.
   */
  predicate Rejected(cfg: Config, plane: Plane, reg: Registry, bin: Option<Vec3>, draw: nat -> real, j: nat)
    requires |plane.boundary| > 0
  {
    var s := SampleAt(Bounds(plane.boundary), draw, j);
    var w := SurfacePoint(plane.frame, s);
    || !Inside(s, plane.boundary)
    || (bin.Some? && TooClose(w, bin.value, cfg.binClearRadius))
    || |cfg.prefabs| == 0
    || !Clear(cfg, reg.positions, bin, w, ClearRadius(cfg.prefabs[RangeI(|cfg.prefabs|, draw(j + 2))]))
  }

  /** Every attempt at the cursors in tried placed nothing. */
  predicate AllRejected(cfg: Config, plane: Plane, reg: Registry, bin: Option<Vec3>, draw: nat -> real, tried: seq<nat>)
    requires |plane.boundary| > 0
  {
    forall a :: 0 <= a < |tried| ==> Rejected(cfg, plane, reg, bin, draw, tried[a])
  }

  /** Successive cursors in tried are at least one sample (two draws) apart. */
  predicate CursorsApart(tried: seq<nat>)
  {
    forall a :: 0 < a < |tried| ==> tried[a - 1] + 2 <= tried[a]
  }

  lemma RejectedAppend(cfg: Config, plane: Plane, reg: Registry, bin: Option<Vec3>, draw: nat -> real, tried: seq<nat>, j: nat)
    requires |plane.boundary| > 0
    requires AllRejected(cfg, plane, reg, bin, draw, tried) && Rejected(cfg, plane, reg, bin, draw, j)
    ensures AllRejected(cfg, plane, reg, bin, draw, tried + [j])
  {
  }

  lemma CursorsApartAppend(tried: seq<nat>, j: nat)
    requires CursorsApart(tried) && (|tried| > 0 ==> tried[|tried| - 1] + 2 <= j)
    ensures CursorsApart(tried + [j])
  {
  }

  /**
   * One attempt of a round at cursor j: the sample drawn at j, skipped when
   * it is outside the polygon or its surface point is inside the bin's
   * radius, else handed to SpawnRandomPrefabAt at cursor j + 2.
   */
  method AttemptOnPlane(cfg: Config, plane: Plane, reg: Registry, bin: Option<Vec3>, draw: nat -> real, j: nat)
    returns (placed: Option<Item>, sample: Vec2, reg': Registry, k': nat)
    requires |plane.boundary| > 0
    ensures k' >= j + 2
    ensures sample == SampleAt(Bounds(plane.boundary), draw, j)
    ensures placed.None? ==> reg' == reg && Rejected(cfg, plane, reg, bin, draw, j)
    ensures placed.Some? ==>
      reg' == Register(reg, placed.value) && PlacedOnPlane(cfg, plane, reg, bin, sample, placed.value)
  {
    sample := SampleAt(Bounds(plane.boundary), draw, j);
    k' := j + 2;
    reg' := reg;
    placed := None;
    var inside := PointInPolygon(sample, plane.boundary);
    var w := SurfacePoint(plane.frame, sample);
    if inside && !(bin.Some? && TooClose(w, bin.value, cfg.binClearRadius)) {
      InsideWithinBounds(sample, plane.boundary);
      placed, reg', k' := SpawnRandomPrefabAt(cfg, reg, bin, w, draw, k');
    }
  }

  /**
   * One round's sampling on a plane: up to maxPlacementAttemptsPerItem points
   * drawn in the boundary's bounds; a point outside the polygon or inside the
   * bin's radius is skipped; the first point where SpawnRandomPrefabAt
   * succeeds ends the round. At most one object is added. `tried` holds the
   * cursors of the attempts that placed nothing, the first at k.
   */
  method TryPlaceOnPlane(cfg: Config, plane: Plane, reg: Registry, bin: Option<Vec3>, draw: nat -> real, k: nat)
    returns (placed: Option<Item>, sample: Vec2, reg': Registry, k': nat, ghost tried: seq<nat>)
    requires |plane.boundary| > 0
    ensures k' >= k
    ensures placed.None? ==> reg' == reg
    ensures placed.Some? ==>
      reg' == Register(reg, placed.value) && PlacedOnPlane(cfg, plane, reg, bin, sample, placed.value)
    ensures |tried| > 0 ==> tried[0] == k
    ensures CursorsApart(tried)
    ensures AllRejected(cfg, plane, reg, bin, draw, tried)
    ensures placed.None? ==> |tried| == if cfg.maxAttemptsPerItem < 0 then 0 else cfg.maxAttemptsPerItem
    ensures placed.Some? ==> |tried| < cfg.maxAttemptsPerItem
  {
    placed := None;
    sample := Vec2(0.0, 0.0);
    reg' := reg;
    k' := k;
    tried := [];
    var attempt: nat := 0;
    while attempt < cfg.maxAttemptsPerItem
      invariant attempt == 0 || attempt <= cfg.maxAttemptsPerItem
      invariant k' >= k
      invariant |tried| == attempt
      invariant attempt == 0 ==> k' == k
      invariant |tried| > 0 ==> tried[0] == k
      invariant |tried| > 0 ==> tried[|tried| - 1] + 2 <= k'
      invariant CursorsApart(tried)
      invariant AllRejected(cfg, plane, reg, bin, draw, tried)
      decreases cfg.maxAttemptsPerItem - attempt
    {
      var j := k';
      var go, s, r2, k2 := AttemptOnPlane(cfg, plane, reg, bin, draw, j);
      k' := k2;
      if go.Some? {
        placed, sample, reg' := go, s, r2;
        return;
      }
      RejectedAppend(cfg, plane, reg, bin, draw, tried, j);
      CursorsApartAppend(tried, j);
      tried := tried + [j];
      attempt := attempt + 1;
    }
  }
}

=== FILE: planes.dfy ===
/**
 * Tracked planes as the engine sees them, the per-update area survey of
 * OnPlanesChanged (total horizontal area and best plane), and the
 * area-weighted plane selection of the multi-plane fill.
 */
module Planes {
  import opened Options
  import opened Vectors
  import opened Polygon

  /** ARFoundation's PlaneAlignment. */
  datatype Alignment = NoAlignment | HorizontalUp | HorizontalDown | Vertical | NotAxisAligned

  /** A tracked plane: its boundary in its own 2D frame, its alignment and its pose. */
  datatype Plane = Plane(boundary: seq<Vec2>, alignment: Alignment, frame: Frame)

  /** Only upward-facing horizontal planes take part. */
  predicate Counts(p: Plane)
  {
    p.alignment == HorizontalUp
  }

  function PlaneArea(p: Plane): real
  {
    PolygonArea(p.boundary)
  }

  /** The result of one pass over the planes: total area, best plane (by index) and its area. */
  datatype Survey = Survey(total: real, best: Option<nat>, bestArea: real)

  /**
   * The area loop of OnPlanesChanged. A plane replaces the best one only when
   * its area is strictly larger, starting from 0, so the best plane is the
   * first plane of maximal area, and there is none when every horizontal
   * plane has zero area.
   */
  function SurveyPlanes(planes: seq<Plane>): (s: Survey)
    ensures 0.0 <= s.bestArea <= s.total
    ensures s.best.None? ==> s.bestArea == 0.0 && s.total == 0.0
    ensures s.best.Some? ==>
      && s.best.value < |planes|
      && Counts(planes[s.best.value])
      && s.bestArea == PlaneArea(planes[s.best.value])
      && s.bestArea > 0.0
    ensures s.best.Some? ==>
      forall j :: 0 <= j < s.best.value && Counts(planes[j]) ==> PlaneArea(planes[j]) < s.bestArea
    ensures forall j :: 0 <= j < |planes| && Counts(planes[j]) ==> PlaneArea(planes[j]) <= s.bestArea
    decreases |planes|
  {
    if |planes| == 0 then
      Survey(0.0, None, 0.0)
    else
      var init := planes[..|planes| - 1];
      var s := SurveyPlanes(init);
      var p := planes[|planes| - 1];
      assert forall j :: 0 <= j < |init| ==> init[j] == planes[j];
      if !Counts(p) then
        s
      else
        var area := PlaneArea(p);
        if area > s.bestArea then
          Survey(s.total + area, Some(|planes| - 1), area)
        else
          Survey(s.total + area, s.best, s.bestArea)
  }

  /**
   * There is no best plane exactly when every horizontal plane has zero area,
   * which is exactly when the total is zero.
   */
  lemma SurveyNoBest(planes: seq<Plane>)
    ensures SurveyPlanes(planes).best.None? <==>
      forall i :: 0 <= i < |planes| && Counts(planes[i]) ==> PlaneArea(planes[i]) == 0.0
    ensures SurveyPlanes(planes).best.None? <==> SurveyPlanes(planes).total == 0.0
  {
  }

  /** Two plane lists that differ only in their non-horizontal planes. */
  predicate SameHorizontal(a: seq<Plane>, b: seq<Plane>)
  {
    && |a| == |b|
    && (forall i :: 0 <= i < |a| ==> Counts(a[i]) == Counts(b[i]))
    && (forall i :: 0 <= i < |a| && Counts(a[i]) ==> a[i].boundary == b[i].boundary)
  }

  /** Non-horizontal planes contribute nothing, whatever their boundaries. */
  lemma {:induction false} SurveyIgnoresNonHorizontal(a: seq<Plane>, b: seq<Plane>)
    requires SameHorizontal(a, b)
    ensures SurveyPlanes(a) == SurveyPlanes(b)
    decreases |a|
  {
    if |a| > 0 {
      var a', b' := a[..|a| - 1], b[..|b| - 1];
      assert SameHorizontal(a', b') by {
        assert forall i :: 0 <= i < |a'| ==> a'[i] == a[i] && b'[i] == b[i];
      }
      SurveyIgnoresNonHorizontal(a', b');
    }
  }

  /** The total is additive over a split of the plane list. */
  lemma {:induction false} SurveyTotalAppend(a: seq<Plane>, b: seq<Plane>)
    ensures SurveyPlanes(a + b).total == SurveyPlanes(a).total + SurveyPlanes(b).total
    decreases |b|
  {
    if |b| == 0 {
      assert a + b == a;
    } else {
      var b' := b[..|b| - 1];
      assert (a + b)[..|a + b| - 1] == a + b';
      SurveyTotalAppend(a, b');
    }
  }

  /**
   * One plane contributes its area when it is HorizontalUp and nothing
   * otherwise; with SurveyTotalAppend, the total is the sum of the horizontal
   * areas.
   */
  lemma SurveySingle(p: Plane)
    ensures SurveyPlanes([p]).total == if Counts(p) then PlaneArea(p) else 0.0
  {
    assert [p][..0] == [];
  }

  /** A plane eligible for the multi-plane fill, with its area. */
  datatype Candidate = Candidate(index: nat, area: real)

  /** The fill's floor under which a plane's area is negligible. */
  const NegligibleArea: real := 0.001

  predicate Eligible(p: Plane)
  {
    Counts(p) && PlaneArea(p) > NegligibleArea
  }

  /** Every candidate of c names an eligible plane of planes and carries its area. */
  predicate EligibleOnly(planes: seq<Plane>, c: seq<Candidate>)
  {
    forall k :: 0 <= k < |c| ==>
      c[k].index < |planes| && Eligible(planes[c[k].index]) && c[k].area == PlaneArea(planes[c[k].index])
  }

  /** The candidates of c are in strictly increasing plane order. */
  predicate InPlaneOrder(c: seq<Candidate>)
  {
    forall k, l :: 0 <= k < l < |c| ==> c[k].index < c[l].index
  }

  /** Every eligible plane of planes has a candidate in c. */
  predicate EveryEligible(planes: seq<Plane>, c: seq<Candidate>)
  {
    forall i :: 0 <= i < |planes| && Eligible(planes[i]) ==> exists k :: 0 <= k < |c| && c[k].index == i
  }

  /**
   * c lists exactly the eligible planes of planes, in plane order, each with
   * its area.
   */
  predicate ListsEligible(planes: seq<Plane>, c: seq<Candidate>)
  {
    EligibleOnly(planes, c) && InPlaneOrder(c) && EveryEligible(planes, c)
  }

  /**
   * The list built at the start of each multi-plane fill round: the horizontal
   * planes of area above the floor, in plane order, with their areas.
   */
  function EligiblePlanes(planes: seq<Plane>): (c: seq<Candidate>)
    ensures ListsEligible(planes, c)
    decreases |planes|
  {
    if |planes| == 0 then
      []
    else
      var c := EligiblePlanes(planes[..|planes| - 1]);
      EligibleExtend(planes, c);
      var p := planes[|planes| - 1];
      if Eligible(p) then c + [Candidate(|planes| - 1, PlaneArea(p))] else c
  }

  /** One more plane extends the list by itself when it is eligible, and leaves it otherwise. */
  lemma EligibleExtend(planes: seq<Plane>, c: seq<Candidate>)
    requires |planes| > 0
    requires ListsEligible(planes[..|planes| - 1], c)
    ensures var p := planes[|planes| - 1];
      ListsEligible(planes, if Eligible(p) then c + [Candidate(|planes| - 1, PlaneArea(p))] else c)
  {
    if Eligible(planes[|planes| - 1]) {
      EligibleAppend(planes, c);
    } else {
      EligibleSkip(planes, c);
    }
  }

  /** An eligible last plane extends the list of the others by its own candidate. */
  lemma EligibleAppend(planes: seq<Plane>, c: seq<Candidate>)
    requires |planes| > 0 && Eligible(planes[|planes| - 1])
    requires ListsEligible(planes[..|planes| - 1], c)
    ensures ListsEligible(planes, c + [Candidate(|planes| - 1, PlaneArea(planes[|planes| - 1]))])
  {
    var r := c + [Candidate(|planes| - 1, PlaneArea(planes[|planes| - 1]))];
    AppendOnly(planes, c);
    assert InPlaneOrder(r) by {
      assert forall k :: 0 <= k < |c| ==> r[k] == c[k];
    }
    AppendEvery(planes, c);
  }

  /** Appending the eligible last plane keeps every candidate eligible. */
  lemma AppendOnly(planes: seq<Plane>, c: seq<Candidate>)
    requires |planes| > 0 && Eligible(planes[|planes| - 1])
    requires EligibleOnly(planes[..|planes| - 1], c)
    ensures EligibleOnly(planes, c + [Candidate(|planes| - 1, PlaneArea(planes[|planes| - 1]))])
  {
    var n := |planes| - 1;
    var r := c + [Candidate(n, PlaneArea(planes[n]))];
    assert forall k :: 0 <= k < |c| ==> r[k] == c[k] && planes[..n][c[k].index] == planes[c[k].index];
  }

  /** Appending the last plane's candidate keeps every eligible plane listed. */
  lemma AppendEvery(planes: seq<Plane>, c: seq<Candidate>)
    requires |planes| > 0
    requires EveryEligible(planes[..|planes| - 1], c)
    ensures EveryEligible(planes, c + [Candidate(|planes| - 1, PlaneArea(planes[|planes| - 1]))])
  {
    var n := |planes| - 1;
    var r := c + [Candidate(n, PlaneArea(planes[n]))];
    forall i | 0 <= i < |planes| && Eligible(planes[i])
      ensures exists k :: 0 <= k < |r| && r[k].index == i
    {
      if i == n {
        assert r[|c|].index == i;
      } else {
        assert planes[..n][i] == planes[i];
        var k :| 0 <= k < |c| && c[k].index == i;
        assert r[k].index == i;
      }
    }
  }

  /** An ineligible last plane leaves the list of the others complete. */
  lemma EligibleSkip(planes: seq<Plane>, c: seq<Candidate>)
    requires |planes| > 0 && !Eligible(planes[|planes| - 1])
    requires ListsEligible(planes[..|planes| - 1], c)
    ensures ListsEligible(planes, c)
  {
    var n := |planes| - 1;
    assert EligibleOnly(planes, c) by {
      assert forall k :: 0 <= k < |c| ==> planes[..n][c[k].index] == planes[c[k].index];
    }
    assert EveryEligible(planes, c) by {
      forall i | 0 <= i < |planes| && Eligible(planes[i])
        ensures exists k :: 0 <= k < |c| && c[k].index == i
      {
        assert planes[..n][i] == planes[i];
      }
    }
  }

  /** The sum of the first k candidate areas. */
  function Prefix(c: seq<Candidate>, k: nat): real
    requires k <= |c|
  {
    if k == 0 then 0.0 else Prefix(c, k - 1) + c[k - 1].area
  }

  /** The area summed up to and including candidate j. */
  function CumArea(c: seq<Candidate>, j: nat): real
    requires j < |c|
  {
    Prefix(c, j + 1)
  }

  function TotalWeight(c: seq<Candidate>): real
  {
    Prefix(c, |c|)
  }

  /**
   * The selection loop from candidate i on, with acc the area summed so far:
   * the first candidate whose cumulative area reaches r, else candidate 0.
   */
  function PickFrom(c: seq<Candidate>, r: real, i: nat, acc: real): (k: nat)
    requires 0 < |c| && i <= |c|
    requires acc == Prefix(c, i)
    ensures k < |c|
    ensures (exists j :: i <= j < |c| && r <= CumArea(c, j)) ==>
      i <= k && r <= CumArea(c, k) && forall j :: i <= j < k ==> CumArea(c, j) < r
    ensures (forall j :: i <= j < |c| ==> CumArea(c, j) < r) ==> k == 0
    decreases |c| - i
  {
    if i == |c| then 0
    else if r <= acc + c[i].area then i
    else PickFrom(c, r, i + 1, acc + c[i].area)
  }

  /** The weighted choice for a draw r of Random.Range(0, totalArea). */
  function PickWeighted(c: seq<Candidate>, r: real): (k: nat)
    requires 0 < |c|
    ensures k < |c|
    ensures (exists j :: 0 <= j < |c| && r <= CumArea(c, j)) ==>
      r <= CumArea(c, k) && forall j :: 0 <= j < k ==> CumArea(c, j) < r
    ensures (forall j :: 0 <= j < |c| ==> CumArea(c, j) < r) ==> k == 0
  {
    PickFrom(c, r, 0, 0.0)
  }

  predicate PositiveWeights(c: seq<Candidate>)
  {
    forall k :: 0 <= k < |c| ==> c[k].area > 0.0
  }

  lemma {:induction false} PrefixMonotone(c: seq<Candidate>, i: nat, j: nat)
    requires PositiveWeights(c)
    requires i <= j <= |c|
    ensures Prefix(c, i) <= Prefix(c, j)
    ensures i < j ==> Prefix(c, i) < Prefix(c, j)
    decreases j - i
  {
    if i < j {
      PrefixMonotone(c, i, j - 1);
    }
  }

  /**
   * With positive weights, a draw of [0, total] selects candidate k exactly
   * when it falls in k's slice (Prefix(k), Prefix(k + 1)] of the total (the
   * first slice also takes 0). Each slice is as wide as the candidate's area,
   * so a uniform draw picks a plane with probability proportional to its area.
   */
  lemma PickWeightedSlices(c: seq<Candidate>, r: real, k: nat)
    requires 0 < |c| && k < |c|
    requires PositiveWeights(c)
    requires 0.0 <= r <= TotalWeight(c)
    ensures PickWeighted(c, r) == k <==> (k == 0 || Prefix(c, k) < r) && r <= CumArea(c, k)
  {
    var chosen := PickWeighted(c, r);
    assert CumArea(c, |c| - 1) == TotalWeight(c);
    forall j | 0 <= j < k
      ensures CumArea(c, j) <= Prefix(c, k)
    {
      PrefixMonotone(c, j + 1, k);
    }
    assert k > 0 ==> CumArea(c, k - 1) == Prefix(c, k);
  }
}

=== FILE: polygon.dfy ===
/**
 * Polygon area by the shoelace formula (ComputePolygonArea). A boundary is the
 * ordered vertex sequence of a tracked plane; its edges are the consecutive
 * pairs of the CLOSED sequence, which repeats the first vertex at the end.
 */
module Polygon {
  import opened Vectors

  /** The boundary with its first vertex repeated at the end. */
  function Closed(poly: seq<Vec2>): (c: seq<Vec2>)
    ensures |poly| > 0 ==> |c| == |poly| + 1 && c[0] == c[|poly|]
  {
    if |poly| == 0 then [] else poly + [poly[0]]
  }

  /** The sum of Cross(s[i], s[i+1]) over the consecutive pairs of s. */
  function Chain(s: seq<Vec2>): real
    decreases |s|
  {
    if |s| < 2 then 0.0 else Chain(s[..|s| - 1]) + Cross(s[|s| - 2], s[|s| - 1])
  }

  /** Twice the signed area of the boundary. */
  function ShoelaceSum(poly: seq<Vec2>): real
  {
    Chain(Closed(poly))
  }

  /** The unsigned area of a boundary; boundaries of fewer than 3 vertices have none. */
  function PolygonArea(poly: seq<Vec2>): (r: real)
    ensures r >= 0.0
    ensures |poly| < 3 ==> r == 0.0
  {
    if |poly| < 3 then 0.0 else Abs(ShoelaceSum(poly) * 0.5)
  }

  /** A boundary with positive area has at least three vertices. */
  lemma PositiveAreaHasThreeVertices(poly: seq<Vec2>)
    requires PolygonArea(poly) > 0.0
    ensures |poly| >= 3
  {
  }

  /** The successor index of i around a cycle of n vertices. */
  lemma NextIndex(i: nat, n: nat)
    requires i < n
    ensures (i + 1) % n == if i + 1 < n then i + 1 else 0
  {
  }

  /** Extending a prefix of s by one vertex adds the cross product of the new edge. */
  lemma ChainStep(s: seq<Vec2>, i: nat)
    requires i + 2 <= |s|
    ensures Chain(s[..i + 2]) == Chain(s[..i + 1]) + Cross(s[i], s[i + 1])
  {
    assert s[..i + 2][..i + 1] == s[..i + 1];
  }

  /**
   * The loop of ComputePolygonArea: the edge (i, (i + 1) % n) for every i,
   * summed, halved, and made non-negative.
   */
  method ComputePolygonArea(boundary: seq<Vec2>) returns (area: real)
    ensures area == PolygonArea(boundary)
    ensures area >= 0.0
  {
    if |boundary| < 3 {
      return 0.0;
    }
    var n := |boundary|;
    ghost var closed := Closed(boundary);
    var sum := 0.0;
    var i := 0;
    while i < n
      invariant 0 <= i <= n
      invariant sum == Chain(closed[..i + 1])
    {
      NextIndex(i, n);
      var j := (i + 1) % n;
      var vi := boundary[i];
      var vj := boundary[j];
      assert closed[i] == vi && closed[i + 1] == vj;
      ChainStep(closed, i);
      sum := sum + (vi.x * vj.y - vj.x * vi.y);
      i := i + 1;
    }
    assert closed[..n + 1] == closed;
    area := Abs(sum * 0.5);
  }

  /** Splitting a chain between two consecutive vertices splits its sum. */
  lemma {:induction false} ChainConcat(s: seq<Vec2>, t: seq<Vec2>)
    requires |s| > 0 && |t| > 0
    ensures Chain(s + t) == Chain(s) + Cross(s[|s| - 1], t[0]) + Chain(t)
    decreases |t|
  {
    var u := s + t;
    if |t| == 1 {
      assert u[..|u| - 1] == s;
    } else {
      var t' := t[..|t| - 1];
      ChainConcat(s, t');
      assert u[..|u| - 1] == s + t';
      assert u[|u| - 2] == t[|t| - 2];
    }
  }

  function Reverse(s: seq<Vec2>): (r: seq<Vec2>)
    ensures |r| == |s|
  {
    seq(|s|, i requires 0 <= i < |s| => s[|s| - 1 - i])
  }

  /** Walking a chain backwards negates its sum. */
  lemma {:induction false} ChainReverse(s: seq<Vec2>)
    ensures Chain(Reverse(s)) == -Chain(s)
    decreases |s|
  {
    if |s| >= 2 {
      var s' := s[..|s| - 1];
      var x := s[|s| - 1];
      assert Reverse(s) == [x] + Reverse(s');
      ChainReverse(s');
      ChainConcat([x], Reverse(s'));
      assert Reverse(s')[0] == s'[|s'| - 1];
    }
  }

  /** Reversing the winding order leaves the area unchanged. */
  lemma AreaReverse(poly: seq<Vec2>)
    ensures PolygonArea(Reverse(poly)) == PolygonArea(poly)
  {
    if |poly| >= 3 {
      var n := |poly|;
      var last := poly[n - 1];
      assert Closed(Reverse(poly)) == Reverse([last] + poly);
      ChainReverse([last] + poly);
      ChainConcat([last], poly);
      ChainConcat(poly, [poly[0]]);
      assert ShoelaceSum(Reverse(poly)) == -ShoelaceSum(poly);
    }
  }

  /** The boundary started at vertex k instead of vertex 0. */
  function Rotate(poly: seq<Vec2>, k: nat): (r: seq<Vec2>)
    requires k <= |poly|
    ensures |r| == |poly|
  {
    poly[k..] + poly[..k]
  }

  /** Starting the boundary at any vertex leaves the area unchanged. */
  lemma AreaRotate(poly: seq<Vec2>, k: nat)
    requires k < |poly|
    ensures PolygonArea(Rotate(poly, k)) == PolygonArea(poly)
  {
    if k == 0 {
      assert Rotate(poly, k) == poly;
    } else if |poly| >= 3 {
      var a := poly[..k];
      var b := poly[k..];
      assert poly == a + b;
      assert Closed(poly) == a + (b + [a[0]]);
      assert Closed(Rotate(poly, k)) == b + (a + [b[0]]);
      ChainConcat(a, b + [a[0]]);
      ChainConcat(b, [a[0]]);
      ChainConcat(b, a + [b[0]]);
      ChainConcat(a, [b[0]]);
    }
  }

  /** The axis-aligned rectangle [x0, x1] x [y0, y1], listed counter-clockwise. */
  function Rectangle(x0: real, y0: real, x1: real, y1: real): seq<Vec2>
  {
    [Vec2(x0, y0), Vec2(x1, y0), Vec2(x1, y1), Vec2(x0, y1)]
  }

  /** The shoelace area of a rectangle is its width times its height. */
  lemma RectangleArea(x0: real, y0: real, x1: real, y1: real)
    requires x0 <= x1 && y0 <= y1
    ensures PolygonArea(Rectangle(x0, y0, x1, y1)) == (x1 - x0) * (y1 - y0)
  {
    var c := Closed(Rectangle(x0, y0, x1, y1));
    assert c[..4][..3][..2][..1] == [Vec2(x0, y0)];
    assert c[..4][..3][..2] == [Vec2(x0, y0), Vec2(x1, y0)];
    assert c[..4][..3] == [Vec2(x0, y0), Vec2(x1, y0), Vec2(x1, y1)];
    assert c[..4] == Rectangle(x0, y0, x1, y1);
    var v0, v1, v2, v3 := Vec2(x0, y0), Vec2(x1, y0), Vec2(x1, y1), Vec2(x0, y1);
    assert Chain(c[..4][..3][..2]) == Cross(v0, v1);
    assert Chain(c[..4][..3]) == Cross(v0, v1) + Cross(v1, v2);
    assert Chain(c[..4]) == Cross(v0, v1) + Cross(v1, v2) + Cross(v2, v3);
    assert Chain(c) == Cross(v0, v1) + Cross(v1, v2) + Cross(v2, v3) + Cross(v3, v0);
    assert ShoelaceSum(Rectangle(x0, y0, x1, y1)) == 2.0 * ((x1 - x0) * (y1 - y0));
    assert (x1 - x0) * (y1 - y0) >= 0.0;
  }
}

=== FILE: registry.dfy ===
/**
 * The spawner's registry: the paired lists spawnedObjects and placedPositions,
 * appended together on every placement and pruned by CleanSpawnedList after
 * objects were destroyed elsewhere (collected into the bin).
 */
module PlacementRegistry {
  import opened Vectors

  /** A spawned trash object: its prefab, its fixed world position and its clear radius. */
  datatype Item = Item(prefab: nat, pos: Vec3, radius: real)

  /** An entry of spawnedObjects: a live object, or one destroyed since (a Unity null). */
  datatype Slot = Destroyed | Live(item: Item)

  datatype Registry = Registry(objects: seq<Slot>, positions: seq<Vec3>)

  const Empty := Registry([], [])

  predicate AllLive(objects: seq<Slot>)
  {
    forall i :: 0 <= i < |objects| ==> objects[i].Live?
  }

  /** The lists have one entry per object, and each live object's entry is its position. */
  predicate Aligned(reg: Registry)
  {
    && |reg.objects| == |reg.positions|
    && forall i :: 0 <= i < |reg.objects| && reg.objects[i].Live? ==> reg.positions[i] == reg.objects[i].item.pos
  }

  /** No two recorded positions are closer than d. */
  predicate Spaced(ps: seq<Vec3>, d: real)
  {
    forall i, j :: 0 <= i < j < |ps| ==> !TooClose(ps[i], ps[j], d)
  }

  /** The two appends at the end of SpawnRandomPrefabAt. */
  function Register(reg: Registry, item: Item): (r: Registry)
    ensures |r.objects| == |reg.objects| + 1 && |r.positions| == |reg.positions| + 1
    ensures r.objects[..|reg.objects|] == reg.objects && r.positions[..|reg.positions|] == reg.positions
    ensures r.objects[|reg.objects|] == Live(item) && r.positions[|r.positions| - 1] == item.pos
    ensures Aligned(reg) ==> Aligned(r)
  {
    Registry(reg.objects + [Live(item)], reg.positions + [item.pos])
  }

  /**
   * A position cleared by at least d + r from every recorded one, with r not
   * negative, keeps the recorded positions d apart.
   */
  lemma SpacedAppend(ps: seq<Vec3>, p: Vec3, d: real, r: real)
    requires Spaced(ps, d)
    requires r >= 0.0
    requires forall i :: 0 <= i < |ps| ==> !TooClose(p, ps[i], d + r)
    ensures Spaced(ps + [p], d)
  {
    var qs := ps + [p];
    forall i, j | 0 <= i < j < |qs|
      ensures !TooClose(qs[i], qs[j], d)
    {
      if j == |ps| {
        TooCloseMonotone(p, ps[i], d, d + r);
        TooCloseSymmetric(p, ps[i], d);
      }
    }
  }

  /** The object at index k is destroyed by someone else; both lists keep their length. */
  function Destroy(reg: Registry, k: nat): (r: Registry)
    requires k < |reg.objects|
    ensures r.positions == reg.positions && |r.objects| == |reg.objects|
    ensures !r.objects[k].Live?
    ensures forall i :: 0 <= i < |reg.objects| && i != k ==> r.objects[i] == reg.objects[i]
    ensures Aligned(reg) ==> Aligned(r)
  {
    Registry(reg.objects[k := Destroyed], reg.positions)
  }

  /** The live objects of a list, in order. */
  function LiveOnly(objects: seq<Slot>): (r: seq<Slot>)
    ensures AllLive(r)
    ensures |r| <= |objects|
    decreases |objects|
  {
    if |objects| == 0 then []
    else
      var init := LiveOnly(objects[..|objects| - 1]);
      var last := objects[|objects| - 1];
      if last.Live? then init + [last] else init
  }

  lemma {:induction false} LiveOnlyAppend(a: seq<Slot>, b: seq<Slot>)
    ensures LiveOnly(a + b) == LiveOnly(a) + LiveOnly(b)
    decreases |b|
  {
    if |b| == 0 {
      assert a + b == a;
    } else {
      var b' := b[..|b| - 1];
      assert (a + b)[..|a + b| - 1] == a + b';
      LiveOnlyAppend(a, b');
    }
  }

  lemma {:induction false} LiveOnlyOfLive(objects: seq<Slot>)
    requires AllLive(objects)
    ensures LiveOnly(objects) == objects
    decreases |objects|
  {
    if |objects| > 0 {
      var init := objects[..|objects| - 1];
      LiveOnlyOfLive(init);
      assert init + [objects[|objects| - 1]] == objects;
    }
  }

  function RemoveAt<T>(s: seq<T>, j: nat): (r: seq<T>)
    requires j < |s|
    ensures |r| == |s| - 1
    ensures forall i :: 0 <= i < j ==> r[i] == s[i]
    ensures forall i :: j <= i < |r| ==> r[i] == s[i + 1]
  {
    s[..j] + s[j + 1..]
  }

  /**
   * The backward loop of CleanSpawnedList over indices i - 1 down to 0: a
   * destroyed object is removed, and so is the position at the same index
   * when there is one.
   */
  function Sweep(reg: Registry, i: nat): Registry
    requires i <= |reg.objects|
    decreases i
  {
    if i == 0 then reg
    else
      var j := i - 1;
      if reg.objects[j].Destroyed? then
        var ps := if j < |reg.positions| then RemoveAt(reg.positions, j) else reg.positions;
        Sweep(Registry(RemoveAt(reg.objects, j), ps), j)
      else
        Sweep(reg, j)
  }

  /** The sweep removes exactly the destroyed objects below i, keeping the order. */
  lemma {:induction false} SweepObjects(reg: Registry, i: nat)
    requires i <= |reg.objects|
    ensures Sweep(reg, i).objects == LiveOnly(reg.objects[..i]) + reg.objects[i..]
    decreases i
  {
    var o := reg.objects;
    if i == 0 {
      assert o[..0] == [];
    } else {
      var j := i - 1;
      assert o[..i][..j] == o[..j];
      if o[j].Destroyed? {
        var ps := if j < |reg.positions| then RemoveAt(reg.positions, j) else reg.positions;
        var o2 := RemoveAt(o, j);
        SweepObjects(Registry(o2, ps), j);
        assert o2[..j] == o[..j];
        assert o2[j..] == o[i..];
      } else {
        SweepObjects(reg, j);
        assert o[j..] == [o[j]] + o[i..];
      }
    }
  }

  /** On aligned lists, the sweep removes the same index from both. */
  lemma {:induction false} SweepAligned(reg: Registry, i: nat)
    requires i <= |reg.objects|
    requires Aligned(reg)
    ensures Aligned(Sweep(reg, i))
    decreases i
  {
    if i > 0 {
      var j := i - 1;
      if reg.objects[j].Destroyed? {
        var next := Registry(RemoveAt(reg.objects, j), RemoveAt(reg.positions, j));
        assert Aligned(next);
        SweepAligned(next, j);
      } else {
        SweepAligned(reg, j);
      }
    }
  }

  /** SweepAligned as an implication, for callers that do not know the lists are aligned. */
  lemma SweepKeepsAlignment(reg: Registry, i: nat)
    requires i <= |reg.objects|
    ensures Aligned(reg) ==> Aligned(Sweep(reg, i))
  {
    if Aligned(reg) {
      SweepAligned(reg, i);
    }
  }

  lemma SpacedRemove(ps: seq<Vec3>, j: nat, d: real)
    requires j < |ps|
    requires Spaced(ps, d)
    ensures Spaced(RemoveAt(ps, j), d)
  {
    var qs := RemoveAt(ps, j);
    forall a, b | 0 <= a < b < |qs|
      ensures !TooClose(qs[a], qs[b], d)
    {
      var a' := if a < j then a else a + 1;
      var b' := if b < j then b else b + 1;
      assert qs[a] == ps[a'] && qs[b] == ps[b'];
    }
  }

  /** The sweep only ever removes positions, so it keeps them spaced. */
  lemma {:induction false} SweepSpaced(reg: Registry, i: nat, d: real)
    requires i <= |reg.objects|
    requires Spaced(reg.positions, d)
    ensures Spaced(Sweep(reg, i).positions, d)
    decreases i
  {
    if i > 0 {
      var j := i - 1;
      if reg.objects[j].Destroyed? {
        var ps := reg.positions;
        if j < |reg.positions| {
          SpacedRemove(reg.positions, j, d);
          ps := RemoveAt(reg.positions, j);
        }
        SweepSpaced(Registry(RemoveAt(reg.objects, j), ps), j, d);
      } else {
        SweepSpaced(reg, j, d);
      }
    }
  }

  /** The positions of a list of live objects. */
  function ItemPositions(objects: seq<Slot>): (ps: seq<Vec3>)
    requires AllLive(objects)
    ensures |ps| == |objects|
    ensures forall i :: 0 <= i < |objects| ==> ps[i] == objects[i].item.pos
  {
    seq(|objects|, i requires 0 <= i < |objects| => objects[i].item.pos)
  }

  /**
   * CleanSpawnedList: sweep out destroyed objects, then, if the lists no
   * longer have the same length, rebuild the positions from the objects.
   */
  function Clean(reg: Registry): (r: Registry)
    ensures r.objects == LiveOnly(reg.objects)
    ensures AllLive(r.objects)
    ensures |r.positions| == |r.objects|
    ensures Aligned(reg) ==> Aligned(r) && r.positions == ItemPositions(r.objects)
  {
    var n := |reg.objects|;
    SweepObjects(reg, n);
    assert reg.objects[..n] == reg.objects && reg.objects[n..] == [];
    var s := Sweep(reg, n);
    SweepKeepsAlignment(reg, n);
    if |s.positions| != |s.objects| then
      Registry(s.objects, ItemPositions(s.objects))
    else
      s
  }

  /** Pruning aligned, spaced lists keeps the remaining positions spaced. */
  lemma CleanSpaced(reg: Registry, d: real)
    requires Aligned(reg)
    requires Spaced(reg.positions, d)
    ensures Spaced(Clean(reg).positions, d)
  {
    SweepSpaced(reg, |reg.objects|, d);
    SweepAligned(reg, |reg.objects|);
  }

  /** Destroying index k of a fully live list and keeping the live objects removes index k. */
  lemma LiveOnlyDestroy(o: seq<Slot>, k: nat)
    requires k < |o| && AllLive(o)
    ensures LiveOnly(o[k := Destroyed]) == RemoveAt(o, k)
  {
    assert o[k := Destroyed] == o[..k] + [Destroyed] + o[k + 1..];
    LiveOnlyAppend(o[..k] + [Destroyed], o[k + 1..]);
    LiveOnlyAppend(o[..k], [Destroyed]);
    assert LiveOnly([Destroyed]) == [] by {
      assert [Destroyed][..0] == [];
    }
    LiveOnlyOfLive(o[..k]);
    LiveOnlyOfLive(o[k + 1..]);
  }

  /**
   * Destroying the object at index k of a fully live, aligned registry and
   * pruning removes exactly the pair at k and keeps the others in order.
   */
  lemma DestroyThenClean(reg: Registry, k: nat)
    requires k < |reg.objects|
    requires AllLive(reg.objects) && Aligned(reg)
    ensures Clean(Destroy(reg, k)) == Registry(RemoveAt(reg.objects, k), RemoveAt(reg.positions, k))
  {
    var d := Destroy(reg, k);
    LiveOnlyDestroy(reg.objects, k);
    var c := Clean(d);
    var o := RemoveAt(reg.objects, k);
    var ps := RemoveAt(reg.positions, k);
    assert c.objects == o;
    assert c.positions == ItemPositions(o);
    assert forall i :: 0 <= i < |o| ==> ps[i] == o[i].item.pos by {
      forall i | 0 <= i < |o|
        ensures ps[i] == o[i].item.pos
      {
        var i' := if i < k then i else i + 1;
        assert ps[i] == reg.positions[i'] && o[i] == reg.objects[i'];
      }
    }
    assert c.positions == ps;
  }
}

=== FILE: settings.dfy ===
/** The spawner's inspector settings, fixed for a run. */
module Settings {
  import opened Options

  /** Whether the trigger looks at the best single plane or at the total area. */
  datatype SpawnMode = SinglePlane | TotalArea

  /**
   * A trash prefab as the placement sees it: the magnitude of the extents of
   * its first collider's bounds, or None when it has no collider.
   */
  datatype Prefab = Prefab(colliderExtent: Option<real>)

  datatype Config = Config(
    mode: SpawnMode,           // SinglePlane by default
    areaThreshold: real,       // square metres, 1.0 by default
    maxSpawns: int,            // 10 by default
    minDistance: real,         // minDistanceBetweenObjects, metres, 0.25 by default
    maxAttemptsPerItem: int,   // maxPlacementAttemptsPerItem, 20 by default
    binClearRadius: real,      // metres kept free around the bin, 0.6 by default
    binYOffset: real,          // metres above the plane, 0.02 by default
    hasBinPrefab: bool,        // binPrefab != null
    prefabs: seq<Prefab>)      // objectPrefabs
}

=== FILE: spawner.dfy ===
/**
 * OnPlanesChanged: prune the registry, survey the planes, decide whether to
 * fill, place the bin once, start the fill, and remember the total area.
 * The fill started by a change is run to completion before the next change.
 */
module Spawner {
  import opened Options
  import opened Vectors
  import opened Polygon
  import opened BoundingBox
  import opened Planes
  import opened Settings
  import opened PlacementRegistry
  import opened Fill

  /** The area growth under which an update counts as noise, in square metres. */
  const Hysteresis: real := 0.001

  /** The spawner's state between plane updates. */
  datatype Engine = Engine(registry: Registry, bin: Option<Vec3>, previousTotalArea: real)

  /** The threshold test: total area in TotalArea mode, the best plane's area in SinglePlane mode. */
  function ThresholdMet(cfg: Config, s: Survey): bool
  {
    if cfg.mode == TotalArea then s.total >= cfg.areaThreshold
    else s.best.Some? && s.bestArea >= cfg.areaThreshold
  }

  /**
   * In SinglePlane mode the threshold is met exactly when some horizontal
   * plane of positive area reaches it on its own.
   */
  lemma ThresholdMeaning(cfg: Config, planes: seq<Plane>)
    requires cfg.mode == SinglePlane
    ensures ThresholdMet(cfg, SurveyPlanes(planes)) <==>
      exists i :: 0 <= i < |planes| && Counts(planes[i]) && PlaneArea(planes[i]) > 0.0
                  && PlaneArea(planes[i]) >= cfg.areaThreshold
  {
    var s := SurveyPlanes(planes);
    SurveyNoBest(planes);
    if s.best.Some? {
      assert Counts(planes[s.best.value]) && PlaneArea(planes[s.best.value]) == s.bestArea;
    }
  }

  /**
   * The bin's world position: the bounds centre of the plane through its
   * frame, lifted binYOffset. On a horizontal plane (its local x and z axes
   * have no vertical part) the bin stands binYOffset above the plane's
   * height, whatever its yaw; on an unrotated plane it also stands over the
   * bounds centre shifted by the plane's origin, equally far from both sides
   * of the bounds on each axis.
   */
  function BinPosition(cfg: Config, plane: Plane): (r: Vec3)
    requires |plane.boundary| > 0
    ensures plane.frame.right.y == 0.0 && plane.frame.forward.y == 0.0 ==>
      r.y == plane.frame.origin.y + cfg.binYOffset
    ensures plane.frame.right == Vec3(1.0, 0.0, 0.0) && plane.frame.forward == Vec3(0.0, 0.0, 1.0) ==>
      var b := Bounds(plane.boundary);
      && b.lo.x <= r.x - plane.frame.origin.x <= b.hi.x
      && b.lo.y <= r.z - plane.frame.origin.z <= b.hi.y
      && r.x - plane.frame.origin.x - b.lo.x == b.hi.x - (r.x - plane.frame.origin.x)
      && r.z - plane.frame.origin.z - b.lo.y == b.hi.y - (r.z - plane.frame.origin.z)
  {
    var c := BoundsCenter(plane.boundary);
    Add3(TransformPoint(plane.frame, Vec3(c.x, 0.0, c.y)), Vec3(0.0, cfg.binYOffset, 0.0))
  }

  /** The outcome of one plane update: the new state, whether a fill starts, and its hint plane. */
  datatype Reaction = Reaction(engine: Engine, fill: bool, hint: Option<Plane>)

  function BestPlane(planes: seq<Plane>, s: Survey): Option<Plane>
    requires s.best.Some? ==> s.best.value < |planes|
  {
    if s.best.Some? then Some(planes[s.best.value]) else None
  }

  /** OnPlanesChanged, without the coroutine it starts. */
  function OnPlanesChanged(cfg: Config, e: Engine, planes: seq<Plane>): (r: Reaction)
    ensures r.engine.previousTotalArea == SurveyPlanes(planes).total
    ensures r.engine.registry == Clean(e.registry)
    ensures r.fill <==>
      && ThresholdMet(cfg, SurveyPlanes(planes))
      && (SurveyPlanes(planes).total > e.previousTotalArea + Hysteresis || |Clean(e.registry).objects| < cfg.maxSpawns)
    ensures r.hint.Some? <==> SurveyPlanes(planes).best.Some?
    ensures r.hint.Some? ==> r.hint.value == planes[SurveyPlanes(planes).best.value]
    ensures r.hint.Some? ==> Counts(r.hint.value) && |r.hint.value.boundary| >= 3
    ensures r.hint.Some? ==> PlaneArea(r.hint.value) == SurveyPlanes(planes).bestArea
    ensures e.bin.Some? ==> r.engine.bin == e.bin
    ensures e.bin.None? ==> (r.engine.bin.Some? <==> r.fill && cfg.hasBinPrefab && r.hint.Some?)
    ensures r.engine.bin != e.bin ==> r.hint.Some? && r.engine.bin == Some(BinPosition(cfg, r.hint.value))
  {
    var reg := Clean(e.registry);
    var s := SurveyPlanes(planes);
    var best := BestPlane(planes, s);
    var fire := ThresholdMet(cfg, s) && (s.total > e.previousTotalArea + Hysteresis || |reg.objects| < cfg.maxSpawns);
    var bin :=
      if fire && e.bin.None? && best.Some? && cfg.hasBinPrefab then Some(BinPosition(cfg, best.value))
      else e.bin;
    Reaction(Engine(reg, bin, s.total), fire, best)
  }

  /** What the engine keeps between updates: aligned lists whose positions are minDistance apart. */
  predicate Healthy(cfg: Config, e: Engine)
  {
    Aligned(e.registry) && Spaced(e.registry.positions, cfg.minDistance)
  }

  /** An object destroyed elsewhere leaves a healthy engine healthy. */
  lemma DestroyKeepsHealthy(cfg: Config, e: Engine, k: nat)
    requires k < |e.registry.objects|
    requires Healthy(cfg, e)
    ensures Healthy(cfg, e.(registry := Destroy(e.registry, k)))
  {
  }

  /**
   * One plane update with the fill it starts: a healthy engine stays healthy,
   * the count does not pass maxSpawns when it started below it, and a full
   * registry is only pruned.
   */
  method HandlePlanesChanged(cfg: Config, e: Engine, planes: seq<Plane>, draw: nat -> real, k: nat)
    returns (e': Engine, added: seq<Item>, rounds: nat, k': nat, ghost misses: seq<Miss>)
    ensures e'.previousTotalArea == SurveyPlanes(planes).total
    ensures e'.bin == OnPlanesChanged(cfg, e, planes).engine.bin
    ensures Healthy(cfg, e) ==> Healthy(cfg, e')
    ensures AllLive(e'.registry.objects)
    ensures |Clean(e.registry).objects| < cfg.maxSpawns ==> |e'.registry.objects| <= cfg.maxSpawns
    ensures |Clean(e.registry).objects| >= cfg.maxSpawns ==> e'.registry == Clean(e.registry)
    ensures !OnPlanesChanged(cfg, e, planes).fill ==> e'.registry == Clean(e.registry) && added == []
    ensures OnPlanesChanged(cfg, e, planes).fill ==>
      && e'.registry == RegisterAll(Clean(e.registry), added)
      && Placements(cfg, e'.bin, Clean(e.registry).positions, added)
    ensures !OnPlanesChanged(cfg, e, planes).fill ==> rounds == 0
    ensures OnPlanesChanged(cfg, e, planes).fill ==>
      || |e'.registry.objects| >= cfg.maxSpawns
      || rounds == Budget(cfg.maxSpawns)
      || (AcrossPlanes(cfg, OnPlanesChanged(cfg, e, planes).hint) && |EligiblePlanes(planes)| == 0)
    ensures !OnPlanesChanged(cfg, e, planes).fill ==> misses == []
    ensures OnPlanesChanged(cfg, e, planes).fill ==>
      || |added| + |misses| == rounds
      || (AcrossPlanes(cfg, OnPlanesChanged(cfg, e, planes).hint) && |EligiblePlanes(planes)| == 0 && rounds == 1)
    ensures OnPlanesChanged(cfg, e, planes).fill ==>
      MissesRejected(cfg, planes, OnPlanesChanged(cfg, e, planes).hint, Clean(e.registry), e'.bin, draw, added, misses)
    ensures k' >= k
  {
    var r := OnPlanesChanged(cfg, e, planes);
    e' := r.engine;
    added := [];
    rounds := 0;
    k' := k;
    misses := [];
    if Healthy(cfg, e) {
      CleanSpaced(e.registry, cfg.minDistance);
    }
    if r.fill {
      var reg, placed, n, k2, missed := FillUntilMax(cfg, planes, r.hint, e'.registry, e'.bin, draw, k);
      if Healthy(cfg, e) {
        PlacementsKeepSpacing(cfg, e'.bin, e'.registry.positions, placed);
      }
      assert AllLive(reg.objects) by {
        assert reg.objects == e'.registry.objects + Lives(placed);
      }
      e' := e'.(registry := reg);
      added := placed;
      rounds := n;
      misses := missed;
      k' := k2;
    }
  }

  /**
   * With no objects recorded, an update reporting one horizontal w x h
   * rectangle under the threshold does not fire; only its area is remembered.
   */
  lemma RectangleBelowThreshold(cfg: Config, e: Engine, f: Frame, w: real, h: real)
    requires cfg.mode == TotalArea && e.registry == Empty
    requires 0.0 <= w && 0.0 <= h && w * h < cfg.areaThreshold
    ensures
      var r := OnPlanesChanged(cfg, e, [Plane(Rectangle(0.0, 0.0, w, h), HorizontalUp, f)]);
      !r.fill && r.engine == e.(previousTotalArea := w * h)
  {
    var p := Plane(Rectangle(0.0, 0.0, w, h), HorizontalUp, f);
    SurveySingle(p);
    RectangleArea(0.0, 0.0, w, h);
    assert Clean(Empty) == Empty;
  }

  /**
   * An update reporting one horizontal w x h rectangle at the threshold, grown
   * by more than the hysteresis, fires and places the bin when there is none.
   */
  lemma RectangleReachesThreshold(cfg: Config, e: Engine, f: Frame, w: real, h: real)
    requires cfg.mode == TotalArea && cfg.hasBinPrefab && e.bin.None?
    requires 0.0 <= w && 0.0 <= h && w * h >= cfg.areaThreshold && w * h > e.previousTotalArea + Hysteresis
    requires w * h > 0.0
    ensures
      var r := OnPlanesChanged(cfg, e, [Plane(Rectangle(0.0, 0.0, w, h), HorizontalUp, f)]);
      r.fill && r.engine.bin.Some? && r.engine.previousTotalArea == w * h
  {
    var p := Plane(Rectangle(0.0, 0.0, w, h), HorizontalUp, f);
    RectangleArea(0.0, 0.0, w, h);
    SurveySingle(p);
    var s := SurveyPlanes([p]);
    assert s.total == w * h;
    assert s.best.Some?;
    assert ThresholdMet(cfg, s);
  }
}

=== FILE: vectors.dfy ===
/**
 * Planar and spatial vectors over the reals, the local-to-world frame of a
 * tracked plane, and the distance comparison that every spacing rule uses.
 * Coordinates are exact reals: float rounding is not modelled.
 */
module Vectors {

  /** A point of a plane boundary, in the plane's own 2D frame. */
  datatype Vec2 = Vec2(x: real, y: real)

  /** A point in world space; y is up. */
  datatype Vec3 = Vec3(x: real, y: real, z: real)

  function Sub(a: Vec2, b: Vec2): Vec2
  {
    Vec2(a.x - b.x, a.y - b.y)
  }

  /** The z-component of the 2D cross product of a and b. */
  function Cross(a: Vec2, b: Vec2): real
  {
    a.x * b.y - a.y * b.x
  }

  /** Componentwise minimum and maximum, as Vector2.Min and Vector2.Max. */
  function Min(a: Vec2, b: Vec2): Vec2
  {
    Vec2(if a.x <= b.x then a.x else b.x, if a.y <= b.y then a.y else b.y)
  }

  function Max(a: Vec2, b: Vec2): Vec2
  {
    Vec2(if a.x >= b.x then a.x else b.x, if a.y >= b.y then a.y else b.y)
  }

  function Abs(r: real): real
  {
    if r < 0.0 then -r else r
  }

  function Add3(a: Vec3, b: Vec3): Vec3
  {
    Vec3(a.x + b.x, a.y + b.y, a.z + b.z)
  }

  function Scale3(a: Vec3, s: real): Vec3
  {
    Vec3(a.x * s, a.y * s, a.z * s)
  }

  /** The squared Euclidean distance between two world points. */
  function DistSq(a: Vec3, b: Vec3): (d: real)
    ensures d >= 0.0
  {
    (a.x - b.x) * (a.x - b.x) + (a.y - b.y) * (a.y - b.y) + (a.z - b.z) * (a.z - b.z)
  }

  /**
   * `Vector3.Distance(a, b) < d`, decided without a square root: the root of
   * a non-negative D is below d exactly when d is positive and D < d * d.
   */
  predicate TooClose(a: Vec3, b: Vec3, d: real)
  {
    0.0 < d && DistSq(a, b) < d * d
  }

  lemma TooCloseSymmetric(a: Vec3, b: Vec3, d: real)
    ensures TooClose(a, b, d) == TooClose(b, a, d)
  {
    assert DistSq(a, b) == DistSq(b, a);
  }

  /** A point too close for a radius is too close for every larger radius. */
  lemma TooCloseMonotone(a: Vec3, b: Vec3, d: real, e: real)
    requires d <= e
    ensures TooClose(a, b, d) ==> TooClose(a, b, e)
  {
    if 0.0 < d {
      assert d * d <= d * e <= e * e;
    }
  }

  /**
   * The local-to-world map of a tracked plane: an origin and the images of the
   * three local axes (the plane's normal is the local y axis).
   */
  datatype Frame = Frame(origin: Vec3, right: Vec3, up: Vec3, forward: Vec3)

  /** Transform.TransformPoint for a frame. */
  function TransformPoint(f: Frame, p: Vec3): Vec3
  {
    Add3(f.origin, Add3(Scale3(f.right, p.x), Add3(Scale3(f.up, p.y), Scale3(f.forward, p.z))))
  }
}

=== FILE: winding.dfy ===
/**
 * The winding-number point-in-polygon test (PointInPolygon, Cross). An edge
 * counts only when it crosses the horizontal line through the point under a
 * half-open rule: its lower end at or below the point, its upper end strictly
 * above it.
 */
module Winding {
  import opened Vectors
  import opened Polygon
  import opened BoundingBox

  /** The contribution of the edge vi -> vj to the winding counter. */
  function EdgeWinding(vi: Vec2, vj: Vec2, p: Vec2): (w: int)
    ensures -1 <= w <= 1
    ensures vi.y == vj.y ==> w == 0
    ensures w == 1 ==> vi.y <= p.y < vj.y
    ensures w == -1 ==> vj.y <= p.y < vi.y
  {
    if vi.y <= p.y then
      if vj.y > p.y && Cross(Sub(vj, vi), Sub(p, vi)) < 0.0 then 1 else 0
    else
      if vj.y <= p.y && Cross(Sub(vj, vi), Sub(p, vi)) > 0.0 then -1 else 0
  }

  /** The winding contributions of the consecutive pairs of s. */
  function WindChain(s: seq<Vec2>, p: Vec2): int
    decreases |s|
  {
    if |s| < 2 then 0 else WindChain(s[..|s| - 1], p) + EdgeWinding(s[|s| - 2], s[|s| - 1], p)
  }

  function WindingNumber(p: Vec2, poly: seq<Vec2>): int
  {
    WindChain(Closed(poly), p)
  }

  predicate Inside(p: Vec2, poly: seq<Vec2>)
  {
    WindingNumber(p, poly) != 0
  }

  /** The body of PointInPolygon's loop for one edge: the change to the counter. */
  method EdgeStep(vi: Vec2, vj: Vec2, point: Vec2) returns (step: int)
    ensures step == EdgeWinding(vi, vj, point)
  {
    step := 0;
    if vi.y <= point.y {
      if vj.y > point.y {
        if Cross(Sub(vj, vi), Sub(point, vi)) < 0.0 {
          step := 1;
        }
      }
    } else {
      if vj.y <= point.y {
        if Cross(Sub(vj, vi), Sub(point, vi)) > 0.0 {
          step := -1;
        }
      }
    }
  }

  /** Extending a prefix of s by one vertex adds the winding of the new edge. */
  lemma WindChainStep(s: seq<Vec2>, i: nat, p: Vec2)
    requires i + 2 <= |s|
    ensures WindChain(s[..i + 2], p) == WindChain(s[..i + 1], p) + EdgeWinding(s[i], s[i + 1], p)
  {
    assert s[..i + 2][..i + 1] == s[..i + 1];
  }

  /** The loop of PointInPolygon over the edges (i, (i + 1) % n). */
  method PointInPolygon(point: Vec2, polygon: seq<Vec2>) returns (inside: bool)
    ensures inside <==> Inside(point, polygon)
  {
    var n := |polygon|;
    ghost var closed := Closed(polygon);
    var windingNumber := 0;
    var i := 0;
    while i < n
      invariant 0 <= i <= n
      invariant n == 0 ==> windingNumber == 0
      invariant n > 0 ==> windingNumber == WindChain(closed[..i + 1], point)
    {
      NextIndex(i, n);
      var j := (i + 1) % n;
      var vi := polygon[i];
      var vj := polygon[j];
      assert closed[i] == vi && closed[i + 1] == vj;
      WindChainStep(closed, i, point);
      var step := EdgeStep(vi, vj, point);
      windingNumber := windingNumber + step;
      i := i + 1;
    }
    if n > 0 {
      assert closed[..n + 1] == closed;
    }
    inside := windingNumber != 0;
  }

  /** No edge of a chain lying entirely at or below the point, or entirely above it, counts. */
  lemma {:induction false} WindChainOneSide(s: seq<Vec2>, p: Vec2)
    requires (forall i :: 0 <= i < |s| ==> s[i].y <= p.y) || (forall i :: 0 <= i < |s| ==> s[i].y > p.y)
    ensures WindChain(s, p) == 0
    decreases |s|
  {
    if |s| >= 2 {
      var s' := s[..|s| - 1];
      assert forall i :: 0 <= i < |s'| ==> s'[i] == s[i];
      WindChainOneSide(s', p);
    }
  }

  /**
   * A point at or above every vertex, or below every vertex, is outside: no
   * edge passes the half-open crossing test.
   */
  lemma OutsideVerticalSpan(p: Vec2, poly: seq<Vec2>)
    requires (forall i :: 0 <= i < |poly| ==> poly[i].y <= p.y) || (forall i :: 0 <= i < |poly| ==> poly[i].y > p.y)
    ensures !Inside(p, poly)
  {
    if |poly| > 0 {
      var c := Closed(poly);
      assert forall i :: 0 <= i < |c| ==> c[i] == poly[if i < |poly| then i else 0];
      WindChainOneSide(c, p);
    }
  }

  /** The sign of a product from the signs of its factors. */
  lemma ProductSign(a: real, b: real)
    ensures a >= 0.0 && b >= 0.0 ==> a * b >= 0.0
    ensures a > 0.0 && b > 0.0 ==> a * b > 0.0
    ensures a >= 0.0 && b <= 0.0 ==> a * b <= 0.0
    ensures a > 0.0 && b < 0.0 ==> a * b < 0.0
  {
  }

  /** An edge with both ends strictly right of the point never counts. */
  lemma EdgeLeftOfBoth(vi: Vec2, vj: Vec2, p: Vec2)
    requires p.x < vi.x && p.x < vj.x
    ensures EdgeWinding(vi, vj, p) == 0
  {
    var c := Cross(Sub(vj, vi), Sub(p, vi));
    if vi.y <= p.y < vj.y {
      var t := p.y - vi.y;
      var d := vj.y - vi.y;
      assert c == t * (vj.x - p.x) + (d - t) * (vi.x - p.x);
      ProductSign(t, vj.x - p.x);
      ProductSign(d - t, vi.x - p.x);
    } else if vj.y <= p.y < vi.y {
      var t := vi.y - p.y;
      var d := vi.y - vj.y;
      assert c == t * (p.x - vj.x) + (d - t) * (p.x - vi.x);
      ProductSign(t, p.x - vj.x);
      ProductSign(d - t, p.x - vi.x);
    }
  }

  /** 1 when the vertex is strictly above the line through the point. */
  function Above(v: Vec2, p: Vec2): int
  {
    if v.y > p.y then 1 else 0
  }

  /**
   * An edge with both ends strictly left of the point counts +1 when it
   * crosses the line upwards and -1 when it crosses downwards.
   */
  lemma EdgeRightOfBoth(vi: Vec2, vj: Vec2, p: Vec2)
    requires vi.x < p.x && vj.x < p.x
    ensures EdgeWinding(vi, vj, p) == Above(vj, p) - Above(vi, p)
  {
    var c := Cross(Sub(vj, vi), Sub(p, vi));
    if vi.y <= p.y < vj.y {
      var t := p.y - vi.y;
      var d := vj.y - vi.y;
      assert c == t * (vj.x - p.x) + (p.x - vi.x) * (t - d);
      ProductSign(t, vj.x - p.x);
      ProductSign(p.x - vi.x, t - d);
    } else if vj.y <= p.y < vi.y {
      var t := vi.y - p.y;
      var d := vi.y - vj.y;
      assert c == t * (p.x - vj.x) + (d - t) * (p.x - vi.x);
      ProductSign(t, p.x - vj.x);
      ProductSign(d - t, p.x - vi.x);
    }
  }

  /** Right of every vertex, the crossings telescope: ups and downs cancel. */
  lemma {:induction false} WindChainRightOfAll(s: seq<Vec2>, p: Vec2)
    requires |s| > 0
    requires forall i :: 0 <= i < |s| ==> s[i].x < p.x
    ensures WindChain(s, p) == Above(s[|s| - 1], p) - Above(s[0], p)
    decreases |s|
  {
    if |s| >= 2 {
      var s' := s[..|s| - 1];
      assert forall i :: 0 <= i < |s'| ==> s'[i] == s[i];
      WindChainRightOfAll(s', p);
      EdgeRightOfBoth(s[|s| - 2], s[|s| - 1], p);
    }
  }

  /** Left of every vertex, no edge counts. */
  lemma {:induction false} WindChainLeftOfAll(s: seq<Vec2>, p: Vec2)
    requires forall i :: 0 <= i < |s| ==> p.x < s[i].x
    ensures WindChain(s, p) == 0
    decreases |s|
  {
    if |s| >= 2 {
      var s' := s[..|s| - 1];
      assert forall i :: 0 <= i < |s'| ==> s'[i] == s[i];
      WindChainLeftOfAll(s', p);
      EdgeLeftOfBoth(s[|s| - 2], s[|s| - 1], p);
    }
  }

  /**
   * Every point the test reports inside lies in the bounds of the boundary,
   * and strictly below its top edge: a bounds-sampled point that passes the
   * test is a point of the bounding box, and a point outside the box is
   * always rejected.
   */
  lemma InsideWithinBounds(p: Vec2, poly: seq<Vec2>)
    requires |poly| > 0
    ensures Inside(p, poly) ==> InBox(p, Bounds(poly)) && p.y < Bounds(poly).hi.y
  {
    var b := Bounds(poly);
    var c := Closed(poly);
    assert forall i :: 0 <= i < |c| ==> c[i] == poly[if i < |poly| then i else 0];
    if p.x < b.lo.x {
      WindChainLeftOfAll(c, p);
    } else if p.x > b.hi.x {
      WindChainRightOfAll(c, p);
    } else if p.y < b.lo.y || p.y >= b.hi.y {
      OutsideVerticalSpan(p, poly);
    }
  }

  /**
   * On a rectangle the test is exact up to its half-open edges: the left and
   * bottom sides are excluded from the left one and included in the bottom
   * one, the right side is included and the top side excluded.
   */
  lemma RectangleInside(x0: real, y0: real, x1: real, y1: real, p: Vec2)
    requires x0 < x1 && y0 < y1
    ensures Inside(p, Rectangle(x0, y0, x1, y1)) <==> x0 < p.x <= x1 && y0 <= p.y < y1
  {
    var r := Rectangle(x0, y0, x1, y1);
    var c := Closed(r);
    assert c[..4][..3][..2][..1] == [Vec2(x0, y0)];
    assert c[..4][..3][..2] == [Vec2(x0, y0), Vec2(x1, y0)];
    assert c[..4][..3] == [Vec2(x0, y0), Vec2(x1, y0), Vec2(x1, y1)];
    assert c[..4] == r;
    var right := EdgeWinding(Vec2(x1, y0), Vec2(x1, y1), p);
    var left := EdgeWinding(Vec2(x0, y1), Vec2(x0, y0), p);
    assert WindChain(c[..4][..3][..2], p) == 0;
    assert WindChain(c[..4][..3], p) == right;
    assert WindChain(c[..4], p) == right;
    assert WindingNumber(p, r) == right + left;
    if y0 <= p.y < y1 {
      assert Cross(Sub(Vec2(x1, y1), Vec2(x1, y0)), Sub(p, Vec2(x1, y0))) == (y1 - y0) * (x1 - p.x);
      assert Cross(Sub(Vec2(x0, y0), Vec2(x0, y1)), Sub(p, Vec2(x0, y1))) == (y1 - y0) * (p.x - x0);
      assert right == (if p.x > x1 then 1 else 0);
      assert left == (if p.x > x0 then -1 else 0);
    }
  }
}
